=== FILE: README.md ===
# Gestor de tareas — a Dafny model

The system is a console to-do list written in Java. Its main class,
`AppTareas`, exists in two copies:

- the copy under `src/main/java/`;
- a second copy under `src/`, which numbers its menu differently and calls a
  validator that allows longer descriptions.

The application keeps an ordered list of `Tarea` objects and a counter
`siguienteId` for the next id. The `iniciar` menu loop lets the user:

- add a task;
- delete a task by id;
- mark a task as completed;
- list all tasks, the completed ones or the pending ones;
- leave (option 7).

Leaving saves the tasks through `GestorPersistencia`, one line per task
(`id|descripcion|true/false|creada|completada`). At start-up the application
reads that file back and sets the counter to one more than the largest id.

The model is a set of Dafny modules, one per part of the program:

| module | models |
|---|---|
| `Common` | the result and error types, and Java `int` arithmetic |
| `Texto` | the parts of `java.lang.String` and `Integer` the program uses: `trim`, `split("\\|")`, `Integer.parseInt`, `Integer.toString`, `Boolean.parseBoolean` and ASCII `toLowerCase` |
| `Fechas` | the timestamps and the `dd/MM/yyyy HH:mm` pattern |
| `Modelo` | the class `Tarea`, with fields updated in place, and `EstadoTarea`, the value of its fields |
| `Validacion` | `ValidadorEntradas`. The two copies differ only in the description cap (150 or 200), so there is one definition with the cap as a parameter. |
| `Operaciones` | both copies of `OperacionesTareas` (the copy under `src/` is a superset) |
| `Persistencia` | the line format of `guardarTareas` and the line parser of `cargarTareas`, plus the two loops as methods |
| `Almacen` | the store of `AppTareas` as a value: tasks plus counter. Every operation is a function from the old store to the outcome and the new store, and the invariants and round trips are proved about these functions. |
| `Menu` | how a menu line selects an action in each copy, and a whole session of `iniciar` as a function |
| `App` | the class `AppTareas`, with `tareas` (a sequence of `Tarea` references) and `siguienteId` updated in place |

`AppTareas` has a constant `copia`, which copy of the class it is, and a
constant `limite` derived from it: the cap of the validator that copy calls.
Each method of `AppTareas` that changes the store is proved to change it
exactly as its counterpart over values says, and to keep the store invariant:
`AgregarTareaConDescripcion` as `Almacen.Agregar`, `EliminarTarea` as
`Almacen.Eliminar`, `MarcarTareaCompletada` as `Almacen.Marcar`,
`CargarTareasDesdeArchivo` and `Incorporar` as `Almacen.CargarEn`,
`Ejecutar` as `Menu.Aplicar`, and `Iniciar`, `Bucle` and `Vuelta` as
`Menu.Sesion`. `SetSiguienteId`, `BuscarTareaPorId` and
`GuardarTareasEnArchivo` have no such counterpart; their own contracts say
what they do. The invariant is:

- every id is below `siguienteId`;
- every task has a completion time exactly while it is completed;
- no task object occurs twice in the list.

The console is replaced by rounds (`Menu.Ronda`). A round holds:

- the menu line;
- the line that the chosen action reads (the description or the id);
- the instant the round happens at.

The file is a sequence of lines, `None` when it does not exist. A write that
fails is the flag `escribible = false`. The clock is a parameter of every
operation that reads it.

The loader `cargarTareas` is a single `while` loop. It is modelled as two
loops:

- `Persistencia.LeerRegistros` parses the lines;
- `Persistencia.CrearTareas` builds the `Tarea` objects.

A failed load discards the objects it has built, so the two loops together
behave as the one loop. The `case 7` save of `iniciar` is made right after the
loop, in `App.AppTareas.Iniciar`. No statement of the loop runs between the
save and the loop's exit, so the order of effects is the same.

## Model

| member | source | states |
|---|---|---|
| Common.Wrap32 | src/main/java/AppTareas.java:222-225 | Java `int` arithmetic. The result is a 32-bit value congruent to the input modulo 2^32. It equals the input when that fits in an `int`, and is 2^32 less when the input is just above `Integer.MAX_VALUE`. |
| Texto.Trim | src/main/java/validacion/ValidadorEntradas.java:19 | `trim()`. The result is empty exactly when the string is blank (every character at most U+0020). Otherwise it starts and ends with a non-blank character and is no longer than the input. |
| Texto.TrimRecorta | src/main/java/validacion/ValidadorEntradas.java:19 | What `trim()` returns is a contiguous slice of the input, with only blank characters before and after it. |
| Texto.TrimRodeado | src/main/java/validacion/ValidadorEntradas.java:47 | Surrounding a string whose ends are not blank with blank characters does not change what `trim()` returns. |
| Texto.IntADecimal | src/persistencia/GestorPersistencia.java:23 | `"" + id`: the canonical decimal numeral of the id. For an id of at least 0 it is digits only, reads back as the id and has no leading zero; for a negative id it is `-` followed by digits without a leading zero that read back as the magnitude. It has no blank at either end and contains no `\|`. |
| Texto.ValorDecimalPosicional | src/persistencia/GestorPersistencia.java:54 | Reading digits from the last one (`ValorDecimal`, how the parser accumulates) and by place value (`ValorPosicional`, the independent definition of a numeral's value) agree on every digit string. |
| Texto.ParseInt | src/persistencia/GestorPersistencia.java:54 | `Integer.parseInt`. It succeeds exactly when the string is a numeral (an optional `+` or `-`, then one or more digits) whose value by place value fits in an `int`, and it then gives that value. |
| Texto.ParseIntCasos | src/persistencia/GestorPersistencia.java:54 | A leading `+` and leading zeros are accepted (`"+5"` is 5, `"007"` is 7); a lone sign and the empty string are rejected. |
| Texto.ParseIntFueraDeRango | src/persistencia/GestorPersistencia.java:54 | The numeral of any magnitude above `Integer.MAX_VALUE`, bare or after `+`, is rejected; after `-` it is rejected when the magnitude is above 2^31. |
| Texto.NatADecimalLimite | src/persistencia/GestorPersistencia.java:54 | The decimal numeral of 2^31 is the text `2147483648`. |
| Texto.ParseIntLimites | src/persistencia/GestorPersistencia.java:54 | `"2147483648"` is rejected (`NumberFormatException`), while `"-2147483648"` gives `Integer.MIN_VALUE`. |
| Texto.ParseIntDeIntADecimal | src/persistencia/GestorPersistencia.java:23-54 | Parsing the decimal text of any `int` gives back the same `int`. |
| Texto.ParseIntRechazaNoNumerico | src/persistencia/GestorPersistencia.java:54 | A string with a character that is neither a digit nor a leading sign is rejected (`NumberFormatException`). |
| Texto.TrozosConcat | src/persistencia/GestorPersistencia.java:52 | Cutting `a + "\|" + b` at every `\|` gives the pieces of `a` followed by the pieces of `b`. |
| Texto.Trozos | src/persistencia/GestorPersistencia.java:52 | Cutting a string at every `\|` gives at least one piece. |
| Texto.TrozosSinBarras | src/persistencia/GestorPersistencia.java:52 | No piece of the cut contains `\|`. |
| Texto.TrozosTrasBarra | src/persistencia/GestorPersistencia.java:52 | A first field without `\|` stays whole: the pieces of `a + "\|" + b` are `a` followed by the pieces of `b`. |
| Texto.UnirTrozos | src/persistencia/GestorPersistencia.java:52 | Joining the pieces again with `\|` (`Texto.Unir`, the `+ "\|" +` of `guardarTareas`) gives back the original string. |
| Texto.TrozosDeUnir | src/persistencia/GestorPersistencia.java:52 | Cutting a join of pieces free of `\|` gives back exactly those pieces. |
| Texto.QuitarVaciosFinales | src/persistencia/GestorPersistencia.java:52 | `split` drops trailing empty strings. The result is a prefix of the pieces that does not end in an empty piece, and every piece dropped is empty. |
| Texto.Split | src/persistencia/GestorPersistencia.java:52 | `split("\\|")`: no field it returns contains `\|`. A string without `\|` gives itself as the only field. Otherwise the fields end with a non-empty one (or there are none), and they are the original string's pieces with the trailing empty ones dropped: joining them back with some number of empty fields appended gives the string. |
| Texto.SplitDeUnir | src/persistencia/GestorPersistencia.java:52 | Splitting a join of two or more `\|`-free fields whose last field is not empty gives back exactly those fields. |
| Texto.ParseBoolean | src/persistencia/GestorPersistencia.java:56 | `Boolean.parseBoolean`: true exactly for `"true"` in any mix of upper and lower case. |
| Texto.AMinuscula | src/operaciones/OperacionesTareas.java:34-35 | `toLowerCase` on one character. `A`–`Z` move 32 code points down to `a`–`z`, and every other character is unchanged. |
| Texto.AMinusculas | src/operaciones/OperacionesTareas.java:34-35 | `toLowerCase` keeps the length and lowers each character independently. |
| Fechas.Relleno | src/main/java/modelo/Tarea.java:71-73 | A zero-padded field of the pattern (`dd`, `MM`, `yyyy`, `HH`, `mm`): exactly the given width, digits only, and read back as the number it was given. |
| Fechas.Formatear | src/main/java/modelo/Tarea.java:71-73 | The `dd/MM/yyyy HH:mm` text of a timestamp with a year from 1 to 9999: always 16 characters, with `/` at positions 2 and 5, a space at 10 and `:` at 13, and otherwise digits. It therefore has no `\|` and no line break. What its fields hold is `Fechas.FormatearLeido`. |
| Fechas.FormatearLeido | src/main/java/modelo/Tarea.java:71-73 | Reading the formatted text back field by field (`LeerFecha`: `dd`, `MM`, `yyyy`, `HH`, `mm` as decimal numbers) gives exactly the timestamp's day, month, year, hour and minute. |
| Fechas.FormatearInyectiva | src/main/java/modelo/Tarea.java:71-73 | Two timestamps with years from 1 to 9999 format to the same text exactly when they are equal. |
| Modelo.Nueva | src/main/java/modelo/Tarea.java:13-19 | A new task has the given id, description and flag, and its creation time is now. It has a completion time (also now) exactly when it is created completed. |
| Modelo.TrasSetCompletada | src/main/java/modelo/Tarea.java:29-36 | `setCompletada(b)` sets the flag to `b` and always leaves a coherent task. It keeps an existing completion time, records now when there was none, and clears the time on `false`. It does not touch the id, description or creation time. |
| Modelo.SetCompletadaIdempotente | src/main/java/modelo/Tarea.java:31-32 | Completing twice, at any two instants, is the same as completing once: the first completion time stays. |
| Modelo.SetCompletadaSobreCompletada | src/main/java/modelo/Tarea.java:29-36 | On a coherent completed task, `setCompletada(true)` changes nothing. |
| Modelo.TextoFechaCompletada | src/main/java/modelo/Tarea.java:76-80 | The text is `"No completada"` exactly when there is no completion time. Otherwise it is `Formatear` of the completion time. It is never empty and has no `\|`. |
| Modelo.Tarea.constructor | src/main/java/modelo/Tarea.java:13-19 | The new object holds `Nueva(id, descripcion, completada, now)` and is coherent. |
| Modelo.Tarea.SetCompletada | src/main/java/modelo/Tarea.java:29-36 | The object's new state is `TrasSetCompletada` of its old state, so it is coherent afterwards. |
| Modelo.Tarea.SetDescripcion | src/main/java/modelo/Tarea.java:42-44 | Only the description changes. |
| Modelo.Tarea.SetId | src/main/java/modelo/Tarea.java:50-52 | Only the id changes. |
| Modelo.Tarea.SetFechaCreacion | src/main/java/modelo/Tarea.java:58-60 | Only the creation time changes. |
| Modelo.Tarea.SetFechaCompletada | src/main/java/modelo/Tarea.java:66-68 | Only the completion time changes. The object stays coherent exactly when the new time is present iff the task is completed, so this raw setter can break coherence. |
| Modelo.Tarea.FechaCreacionFormateada | src/main/java/modelo/Tarea.java:71-73 | `Formatear` of the object's creation time: 16 characters, free of `\|`. |
| Modelo.Tarea.FechaCompletadaFormateada | src/main/java/modelo/Tarea.java:76-80 | `"No completada"` exactly when the object has no completion time, and otherwise `Formatear` of that time. Never empty, and free of `\|`. |
| Validacion.ValidarId | src/main/java/validacion/ValidadorEntradas.java:11-15 | Passes exactly when `id > 0`, and fails with the id error otherwise. The copy at src/validacion/ValidadorEntradas.java:15-19 is identical. |
| Validacion.ValidarDescripcion | src/main/java/validacion/ValidadorEntradas.java:18-26 | Fails with "vacía" exactly when the description is null or blank. Fails with "too long" exactly when it is not blank and longer than the cap, so the blank check comes first. Passes exactly when it is non-blank and within the cap (150 in this copy, 200 under `src/`). |
| Validacion.LimiteSrcMasAmplio | src/validacion/ValidadorEntradas.java:26-34 | Every description the 150 cap accepts, the 200 cap accepts too. 151 letters `a` are rejected by the first and accepted by the second. |
| Validacion.CasosDePrueba | src/test/java/AppTareasTest.java:56-103 | `null`, `""` and `"   "` are rejected as empty, and `"Completar proyecto Java"` is accepted. |
| Validacion.ValidarOpcionMenu | src/validacion/ValidadorEntradas.java:42-55 | The flag-and-`break` loop over the array passes exactly when the option occurs in the array, and otherwise fails with the option error. An empty array therefore rejects everything. The copy at src/main/java/validacion/ValidadorEntradas.java:29-41 is identical. |
| Validacion.ValidarYParsearEntero | src/main/java/validacion/ValidadorEntradas.java:45-51 | Succeeds exactly when the trimmed input is a numeral whose value fits in an `int`, and then gives that value. A failure is the "not an integer" error, and blank input always fails. |
| Validacion.ParsearEnteroDeDecimal | src/main/java/validacion/ValidadorEntradas.java:45-51 | The decimal text of any `int`, with blanks around it, parses to that `int`. |
| Validacion.ParsearEnteroRechaza | src/validacion/ValidadorEntradas.java:63-69 | Input whose trimmed text has a character that is neither a digit nor a leading sign fails with the "not an integer" error. |
| Operaciones.TareaPendiente | src/main/java/operaciones/OperacionesTareas.java:13-16 | `TAREA_PENDIENTE` is the complement of `TAREA_COMPLETADA` (`Operaciones.TareaCompletada`, line 16): exactly one holds for any task. |
| Operaciones.FiltrarPorId | src/main/java/operaciones/OperacionesTareas.java:19-21 | Holds exactly when the task's id equals the given id. |
| Operaciones.FiltrarPorDescripcion | src/operaciones/OperacionesTareas.java:33-36 | An empty text matches every task. A text that occurs in the description, in the same case, matches (occurrence is `Texto.Contiene`, `String.contains`: the text equals the slice of the description at some index). |
| Operaciones.ContieneMinusculas | src/operaciones/OperacionesTareas.java:34-35 | Lowering both strings keeps every occurrence: if `sub` occurs in `s`, the lowered `sub` occurs in the lowered `s`. The empty string occurs everywhere. |
| Operaciones.FiltrarPorDescripcionIgnoraMayusculas | src/operaciones/OperacionesTareas.java:33-36 | The filter ignores case: two texts that lower to the same string select the same tasks. |
| Operaciones.MarcarCompletada | src/main/java/operaciones/OperacionesTareas.java:24-27 | `MARCAR_COMPLETADA` leaves the task completed, with a completion time, and coherent. Its new state is `setCompletada(true)` of the old, so the id and description are unchanged. |
| Operaciones.MarcarPendiente | src/main/java/operaciones/OperacionesTareas.java:30-33 | `MARCAR_PENDIENTE` leaves the task pending, without a completion time, and coherent. The id and description are unchanged. |
| Operaciones.AFormatoTexto | src/operaciones/OperacionesTareas.java:65-69 | Cut at every `\|`, the text is the id's decimal numeral, the pieces of the description, and `COMPLETADA` or `PENDIENTE` by the task's state. It ends in `COMPLETADA` exactly when the task is completed. When the description has no `\|`, splitting the text gives back the id, the description and the state word. |
| Operaciones.AFormatoTextoCampos | src/operaciones/OperacionesTareas.java:65-69 | The three-field join is split back into its fields, and its ending decides the state word. |
| Operaciones.TrozosTres | src/operaciones/OperacionesTareas.java:65-69 | Cutting the join of three fields whose first and last have no `\|` gives the first field, the pieces of the middle one, and the last field. |
| Operaciones.ObtenerEstado | src/operaciones/OperacionesTareas.java:74-75 | `"Completada"` exactly when the task is completed, and `"Pendiente"` exactly when it is not. |
| Persistencia.CamposLinea | src/persistencia/GestorPersistencia.java:23-27 | The five fields of a saved line: the id's decimal numeral, the description, `"true"` or `"false"` by the flag, `Formatear` of the creation time, and `TextoFechaCompletada`. The last is never empty, and every field except the description is free of `\|`. |
| Persistencia.FormatoLinea | src/persistencia/GestorPersistencia.java:23-27 | A saved line (the five fields joined by `Texto.Unir`), cut at every `\|`, is the id's numeral, the pieces of the description and the last three fields. It is never blank. When the description has no `\|`, both cutting and `split` give back exactly the five fields. |
| Persistencia.TrozosCampos | src/persistencia/GestorPersistencia.java:23-27 | Cutting the join of five fields, all but the second free of `\|`, gives the first field, the pieces of the second, and the last three fields. |
| Persistencia.Lineas | src/persistencia/GestorPersistencia.java:22-28 | One line per task, in list order. |
| Persistencia.LeerLinea | src/persistencia/GestorPersistencia.java:51-59 | A blank line is skipped, and a line that is read has a 32-bit id. |
| Persistencia.LeerLineaCasos | src/persistencia/GestorPersistencia.java:51-56 | The three cases of one line. It is skipped exactly when blank or when it splits into fewer than three fields. Its id is invalid exactly when it is otherwise kept but the first field does not parse. Otherwise it is read as (the parsed id, the second field, `parseBoolean` of the third). |
| Persistencia.Lecturas | src/persistencia/GestorPersistencia.java:50-62 | One reading per line, in order: the reading at position `i` is `LeerLinea` of line `i`. |
| Persistencia.LineasPaso | src/persistencia/GestorPersistencia.java:22-28 | Writing one more task appends exactly its line to the lines written so far. |
| Persistencia.Reunir | src/persistencia/GestorPersistencia.java:50-65 | Collecting the readings fails only with the persistence error, and succeeds with at most one record per reading. |
| Persistencia.ReunirFalla | src/persistencia/GestorPersistencia.java:54-64 | The collection fails exactly when some line had an invalid id. |
| Persistencia.Cargar | src/persistencia/GestorPersistencia.java:48-67 | Loading lines fails only with the persistence error, and yields at most one record per line. |
| Persistencia.CargarPaso | src/persistencia/GestorPersistencia.java:50-62 | One pass of the `while` loop. An invalid id fails the whole load, a skipped line adds nothing, and a read line appends its record to what was collected so far. |
| Persistencia.CargarFalla | src/persistencia/GestorPersistencia.java:54-64 | A load fails, with no partial result, exactly when some line that is neither blank nor short has an id that does not parse. |
| Persistencia.CargarArchivo | src/persistencia/GestorPersistencia.java:39-67 | A missing file gives an empty list, not an error. An existing file gives the load of its lines. |
| Persistencia.LeerLineaDeFormato | src/persistencia/GestorPersistencia.java:23-56 | A saved line is read back as the task's id, description and flag, when the description has no `\|`. |
| Persistencia.IdaYVuelta | src/persistencia/GestorPersistencia.java:22-59 | Round trip: loading the saved lines of any list of tasks whose descriptions have no `\|` and no line break gives that list's (id, description, flag) records, in order. |
| Persistencia.LeerLineaAFormatoTexto | src/operaciones/OperacionesTareas.java:65-69 | An `A_FORMATO_TEXTO` line is accepted by the loader, but always as pending: `COMPLETADA` is not `"true"`. |
| Persistencia.Nuevas | src/persistencia/GestorPersistencia.java:58 | One new task per record, in order, each created now, with the record's id, description and flag. The records are recovered from the tasks. |
| Persistencia.GuardarTareas | src/persistencia/GestorPersistencia.java:20-32 | The write loop fails with the persistence error exactly when the file is not writable. Otherwise it writes `Lineas` of the tasks' states. |
| Persistencia.LeerRegistros | src/persistencia/GestorPersistencia.java:48-65 | The parse loop over the lines yields exactly `Cargar` of the lines. |
| Persistencia.CrearTareas | src/persistencia/GestorPersistencia.java:58-59 | The construction loop yields distinct fresh objects whose states are `Nuevas` of the records. |
| Persistencia.CargarTareas | src/persistencia/GestorPersistencia.java:39-68 | `cargarTareas` fails exactly when `CargarArchivo` fails, with the persistence error. Otherwise it yields distinct fresh objects whose states are the tasks built from the records read. |
| Almacen.VacioInvariante | src/main/java/AppTareas.java:18-20 | The empty store with counter 1 satisfies the store invariant. |
| Almacen.PrimerIndice | src/main/java/AppTareas.java:208-213 | `findFirst`: the position of the first task with that id, and none exactly when no task has it. |
| Almacen.Filtrar | src/main/java/AppTareas.java:182-184 | `stream().filter(p)` keeps exactly the tasks that satisfy `p`, and is no longer than the list. |
| Almacen.Completadas | src/main/java/AppTareas.java:182-184 | The completed listing holds exactly the completed tasks of the list. |
| Almacen.Pendientes | src/main/java/AppTareas.java:196-198 | The pending listing holds exactly the pending tasks of the list. |
| Almacen.FiltrarConcat | src/main/java/AppTareas.java:182-184 | Filtering is order-preserving: the filter of a concatenation is the concatenation of the filters. |
| Almacen.Particion | src/main/java/AppTareas.java:182-198 | The completed and pending listings partition the list: their lengths add up, and their multisets add up to the list's. |
| Almacen.MaxId | src/main/java/AppTareas.java:222-225 | `max()` of the ids is an id of the list and no id exceeds it. |
| Almacen.Agregar | src/main/java/AppTareas.java:106-114 | The outcome is `validarDescripcion`'s. A rejected description leaves the store unchanged. An accepted one appends a pending task created now, with no completion time, the old counter as id and that description, and increments the counter; the earlier tasks are untouched. |
| Almacen.AgregarInvariante | src/main/java/AppTareas.java:109-110 | Adding keeps the store invariant. |
| Almacen.AgregarIdNuevo | src/main/java/AppTareas.java:109 | The id an add assigns is used by no task before, and afterwards it is found exactly at the new last position. |
| Almacen.Eliminar | src/main/java/AppTareas.java:116-137 | An empty list does nothing. Otherwise: an id that does not parse is the `NoEsEntero` validation error and one that is not positive the `IdNoPositivo` one, and only these are validation errors; a valid id that no task has fails with not-found on that id, and exactly then; a valid id that some task has removes the first task with it and keeps the others in order. Every failure leaves the store unchanged, and the counter never changes. |
| Almacen.EliminarAusente | src/main/java/AppTareas.java:130-133 | A valid id that no task has fails with not-found on that id and leaves the store unchanged. |
| Almacen.EliminarInvariante | src/main/java/AppTareas.java:135 | Deleting keeps the store invariant. |
| Almacen.Marcar | src/main/java/AppTareas.java:139-168 | Without pending tasks it does nothing. Otherwise: an id that does not parse is the `NoEsEntero` validation error and one that is not positive the `IdNoPositivo` one, and only these are validation errors; a valid id that no task has fails with not-found on that id, and exactly then; for a valid id that some task has, an already completed first such task leaves the store as it is, and a pending one becomes completed at the current instant with nothing else changed. Failures leave the store unchanged, and the counter and the length never change. |
| Almacen.MarcarInvariante | src/main/java/AppTareas.java:157-167 | Marking keeps the store invariant. Every task is either unchanged or keeps its id and is now completed with a completion time. |
| Almacen.MarcarCompletadaNoCambia | src/main/java/AppTareas.java:162-165 | Marking a task that is already completed leaves the store unchanged. |
| Almacen.SiguienteIdComoEscrito | src/main/java/AppTareas.java:221-226 | The reseeding as written, `max + 1` in `int` arithmetic. It is `max + 1` when that fits, and always a 32-bit value. |
| Almacen.SiguienteIdTrasCarga | src/main/java/AppTareas.java:221-226 | The reseeding as intended: every id is below it, and it is the least such value. |
| Almacen.CargarEn | src/main/java/AppTareas.java:215-235 | A failed read leaves the store unchanged. A successful one appends the new tasks, and when the list is not empty it sets the counter to `SiguienteIdTrasCarga` of the whole list. An empty list keeps the counter. |
| Almacen.CargarEnInvariante | src/main/java/AppTareas.java:217-226 | A load keeps the store invariant: a successful load recomputes the counter above every id, and a failed one leaves the store as it was. |
| Almacen.GuardarYCargar | src/persistencia/GestorPersistencia.java:20-67 | Saving a store whose descriptions have no `\|` and no line break, then loading the file into the empty store, succeeds. It gives back every task's id, description and flag, in order, with a counter above every id. |
| Almacen.UnaTareaIdaYVuelta | src/persistencia/GestorPersistencia.java:20-67 | Saving a single task whose id is an `int` and whose description has no `\|` and no line break, then loading the file, gives back exactly its record. |
| Almacen.CargarUna | src/main/java/AppTareas.java:215-226 | Loading a single record into the empty store gives that task alone, with the counter one above its id when that fits in an `int`, both as intended and as written. |
| Almacen.CargarRegistrosDe | src/main/java/AppTareas.java:217-226 | Loading the records of some tasks into the empty store gives back those records, with a counter above every one of the tasks' ids. |
| Almacen.CargarDeVacio | src/AppTareas.java:198-209 | Loading records into the empty store yields tasks with exactly those records, and a counter above each of their ids. |
| Almacen.IncrementoComoEscrito | src/main/java/AppTareas.java:109 | `siguienteId++` as written, on a Java `int`: one more when that fits, `Integer.MIN_VALUE` after `Integer.MAX_VALUE`, always a 32-bit value. |
| Almacen.DesbordeAlAgregar | src/main/java/AppTareas.java:109 | A file whose only task has id 2147483646 saves and loads with counter 2147483647. One add then hands out id 2147483647, and the counter as written wraps to -2147483648, which is below that id. |
| Almacen.DesbordeAlRecargar | src/AppTareas.java:204-209 | A file whose only task has id 2147483647 loads fine. The counter as written then becomes -2147483648, which is not above that id. |
| Menu.AccionDe | src/main/java/AppTareas.java:46-69 | The `switch` of each copy. A number selects an action exactly when it is in `{1..7}`, and selects leaving exactly when it is 7. |
| Menu.OpcionDe | src/main/java/AppTareas.java:85-95 | The number the menu prints for an action is always a valid option. |
| Menu.NumeracionBiyectiva | src/AppTareas.java:74-84 | In each copy, the menu numbers and the actions correspond one to one. |
| Menu.NumeracionesComparadas | src/AppTareas.java:35-47 | The copies agree on 1, 5, 6 and 7, and disagree on each of 2, 3 and 4. The `src/` copy's 2, 3 and 4 are the main copy's 3, 4 and 2. |
| Menu.OpcionTras | src/main/java/AppTareas.java:42-44 | `opcion` after the menu line: the parsed number, even when `validarOpcionMenu` rejects it. The previous value stays when the line is not a number. |
| Menu.Seleccion | src/main/java/AppTareas.java:42-46 | A line runs an action exactly when it parses to a number in `opcionesValidas`, and runs leaving exactly when it parses to 7. |
| Menu.Aplicar | src/main/java/AppTareas.java:46-74 | Every action other than adding, deleting and marking (the three listings, leaving, and no action for an invalid line) leaves the store unchanged. |
| Menu.AplicarInvariante | src/main/java/AppTareas.java:46-74 | Every round keeps the store invariant. |
| Menu.Sesion | src/main/java/AppTareas.java:39-80 | A session consumes at most the rounds given, and at least one when there is any. |
| Menu.PrimeraRonda | src/main/java/AppTareas.java:39-80 | A session with rounds left consumes at least one round and never more than are left. The first round runs its action, and it is the last round when it sets `opcion` to 7. |
| Menu.SesionPaso | src/main/java/AppTareas.java:76-80 | The round that sets `opcion` to 7 is the last. Any other round is followed by the rest of the session. |
| Menu.SesionInvariante | src/main/java/AppTareas.java:39-80 | A whole session keeps the store invariant. |
| Menu.SesionTermina | src/AppTareas.java:65-69 | Whatever the actions do, the loop stops right after the first line that reads as 7, with `opcion` 7. Without such a line it consumes every round and `opcion` is not 7. Only option 7 ends the loop. |
| App.AppTareas.constructor | src/main/java/AppTareas.java:16-33 | It records which copy it is and takes that copy's validation cap (`LimiteDe`). It starts with an empty list and counter 1. Then, when loading is asked for, the tasks of the file are loaded exactly as `CargarEn` says. A failed load leaves the empty store with counter 1. |
| App.AppTareas.Iniciar | src/main/java/AppTareas.java:35-83 | The store after `iniciar` and the rounds consumed are those of `Sesion` from `opcion` 0. The tasks are saved exactly when the session left on 7. A save fails exactly when the file is not writable, and otherwise writes `Lineas` of the final tasks. |
| App.AppTareas.Bucle | src/main/java/AppTareas.java:39-80 | The `do … while` loop ends in exactly the store, rounds consumed and `opcion` that `Sesion` gives. |
| App.AppTareas.Vuelta | src/main/java/AppTareas.java:40-79 | One pass of the loop is one step of `Sesion`: leaving ends the session, and any other option leaves the rest of the session to run. |
| App.AppTareas.LeerOpcion | src/main/java/AppTareas.java:42-44 | The new `opcion` is `OpcionTras` and the action to run is `Seleccion`, through `validarYParsearEntero` and the `validarOpcionMenu` loop. |
| App.AppTareas.Ejecutar | src/main/java/AppTareas.java:46-69 | The `switch` changes the store exactly as `Aplicar` says. |
| App.AppTareas.AgregarTareaConDescripcion | src/main/java/AppTareas.java:106-114 | Fails exactly when the description is invalid, with the validator's error. The store becomes `Agregar` of the old one. On success it returns a fresh object appended to the list; on failure the list is unchanged. |
| App.AppTareas.EliminarTarea | src/main/java/AppTareas.java:116-137 | The outcome and the new store are those of `Eliminar`, and no object is added. |
| App.AppTareas.MarcarTareaCompletada | src/main/java/AppTareas.java:139-168 | The outcome and the new store are those of `Marcar`. |
| App.AppTareas.Completar | src/main/java/AppTareas.java:167 | `MARCAR_COMPLETADA` on the task at position `k` changes that task only, as `setCompletada(true)`. |
| App.AppTareas.BuscarTareaPorId | src/main/java/AppTareas.java:208-213 | Returns none exactly when no task has the id. Otherwise it returns the first task object with it. |
| App.AppTareas.CargarTareasDesdeArchivo | src/main/java/AppTareas.java:215-235 | The new store is `CargarEn` of the old store and what `cargarTareas` read. |
| App.AppTareas.Incorporar | src/main/java/AppTareas.java:218-226 | `addAll` of the loaded objects, then the reseeding, as `CargarEn` says. A failed load leaves the list unchanged. |
| App.AppTareas.GuardarTareasEnArchivo | src/main/java/AppTareas.java:237-244 | Fails exactly when the file is not writable. Otherwise it writes `Lineas` of the current tasks. |
| App.AppTareas.SetSiguienteId | src/main/java/AppTareas.java:259-261 | Sets the counter as given. The store stays valid exactly when every id is below the new value. |

## Left out

- Console I/O: `Scanner` and every `System.out` line are not modelled.
  - A round of the loop is given as data (`Menu.Ronda`). The model does not track which physical lines a round reads. For example, `eliminarTarea` on an empty list does not read the id line, and a "Presione Enter" line is read after every round that does not leave.
  - `mostrarMenu`, `mostrarTodasLasTareas`, `mostrarTareasCompletadas`, `mostrarTareasPendientes`, `IMPRIMIR_TAREA` and `MOSTRAR_ESTADISTICAS` only print. `mostrarTareasCompletadas` and `mostrarTareasPendientes` are modelled by the listings `Almacen.Completadas` and `Almacen.Pendientes`; all of them leave the store unchanged.
- End of input: `sc.nextLine()` at the end of the input throws, and this ends `iniciar` without saving. The model ends the session when the rounds run out, also without saving.
- File system access: the file is its sequence of lines, or `None` when it does not exist. The flag `escribible` says whether the file can be opened for writing; when it cannot, `new FileWriter` throws and the persistence error results. An `IOException` on reading, which Java turns into the persistence error, is not modelled: reading an existing file never fails in the model, and only an id that does not parse gives that error. `existeArchivo` and `ARCHIVO_TAREAS` are not modelled.
- Clock: `LocalDateTime.now()` is a parameter. The constructor reads the clock twice, and the model uses one instant for both reads. Loading stamps every task it builds with one instant (`Persistencia.Nuevas`, `Persistencia.CrearTareas`, `Persistencia.CargarTareas`), where Java reads the clock again for each task. Seconds and nanoseconds, which the pattern does not print, are not kept.
- Fechas.Formatear: timestamps are limited to years 1 to 9999. For year 0 and earlier, `yyyy` prints the year-of-era (year 0 prints as `0001`), and beyond 9999 it prints a sign. A clock never returns those years, and `Fechas.FormatearInyectiva` would not hold across year 0 and year 1.
- `Tarea()`: the constructor without arguments leaves the description null. It is not modelled because the core never calls it.
- `Tarea.toString`, `getFechaCreacion`, `getFechaCompletada` and the other plain getters are read directly as fields.
- Texto.AMinuscula, Texto.AMinusculas: `toLowerCase()` uses the default locale. The model assumes a default locale in which `A`–`Z` lower to `a`–`z` (under Turkish or Azerbaijani, `I` lowers to a dotless `ı` instead), and lowering outside `A`–`Z` is not modelled. `Operaciones.FiltrarPorDescripcionIgnoraMayusculas` holds under the same assumption.
- Text is modelled as Dafny `char` sequences. Java's UTF-16 lengths and `Integer.parseInt`'s non-ASCII digits are not modelled.
- Descriptions that contain `|`, or a line break, do not survive a save and load. The round-trip lemmas require descriptions free of both. A line break would split a line in the file, which is not modelled because the file is given as lines.
- Almacen.Agregar: models `siguienteId++` as intended, without 32-bit wrap-around. As written it wraps once the counter is `Integer.MAX_VALUE`, which one load of a task with id 2147483646 followed by one add reaches (see "## Findings").
- Write errors: `PrintWriter.println` and `close` swallow an `IOException` and only set an error flag that the code never checks, so a failed write after opening the file still reports success. The model writes every line once the file can be opened.
- Operaciones.FiltrarPorDescripcion: states the empty-text and same-case cases and, through `Operaciones.FiltrarPorDescripcionIgnoraMayusculas`, case-insensitivity. It does not state that the filter is exactly the lowered substring test.
- Exception classes become one error datatype (`Common.Error`). The datatype keeps the kind of error and the not-found id, not the message text.
- Object identity: `List.remove(Object)` removes the first task equal to the found one. Tasks are distinct objects, so the model removes the task at the found position.

## Findings

| source | as written | input that shows it | evidently intended | confidence | as-written member | corrected member |
|---|---|---|---|---|---|---|
| src/main/java/AppTareas.java:221-226 (and src/AppTareas.java:204-209) | `siguienteId = max(id) + 1` in Java `int` arithmetic | a file holding one task with id 2147483647: the counter wraps to -2147483648, so it is not above that id, and later additions get negative ids | a counter above every loaded id | not executed | Almacen.SiguienteIdComoEscrito, shown by Almacen.DesbordeAlRecargar | Almacen.SiguienteIdTrasCarga, with Almacen.CargarEnInvariante |
| src/main/java/AppTareas.java:109 (and src/AppTareas.java:93) | `siguienteId++` on a Java `int` | a file holding one task with id 2147483646: it loads with counter 2147483647, one add gives the new task that id, and the counter wraps to -2147483648, so later additions get ids below existing ones | a counter that stays above every id | not executed | Almacen.IncrementoComoEscrito, shown by Almacen.DesbordeAlAgregar | Almacen.Agregar, with Almacen.AgregarInvariante |

=== FILE: almacen.dfy ===
/** The task store of `AppTareas` as a value: the tasks in list order and the
    next id to hand out. Each operation of the class is specified here as a
    function from the old store to the outcome and the new store; the class
    in `App` is proved to follow these functions, and the properties of the
    store are proved about them. */
module Almacen {
  import opened Common
  import opened Fechas
  import opened Texto
  import opened Modelo
  import opened Validacion
  import opened Persistencia
  import Operaciones

  datatype Almacen = Almacen(tareas: seq<EstadoTarea>, siguienteId: int)

  /** The store before anything is loaded: no tasks, next id 1. */
  const VACIO: Almacen := Almacen([], 1)

  /** Every id in `es` is below `n`. */
  predicate IdsMenores(es: seq<EstadoTarea>, n: int) {
    forall i :: 0 <= i < |es| ==> es[i].id < n
  }

  /** What the store keeps true: every id is below the next id, and every
      task has a completion time exactly while it is completed. */
  predicate Invariante(a: Almacen) {
    IdsMenores(a.tareas, a.siguienteId) &&
    forall i :: 0 <= i < |a.tareas| ==> Coherente(a.tareas[i])
  }

  lemma VacioInvariante()
    ensures Invariante(VACIO)
  {
  }

  // ---------------------------------------------------------------------
  // Queries
  // ---------------------------------------------------------------------

  /** `stream().filter(filtrarPorId(id)).findFirst()`: the position of the
      first task with id `id`, if any. */
  function PrimerIndice(es: seq<EstadoTarea>, id: int): (r: Option<nat>)
    ensures r.Some? ==> r.value < |es| && es[r.value].id == id
    ensures r.Some? ==> forall j :: 0 <= j < r.value ==> es[j].id != id
    ensures r.None? <==> forall j :: 0 <= j < |es| ==> es[j].id != id
  {
    if es == [] then None
    else if Operaciones.FiltrarPorId(id, es[0]) then Some(0)
    else
      match PrimerIndice(es[1..], id)
      case None => None
      case Some(k) => Some(k + 1)
  }

  /** `stream().filter(p).collect(toList())`: the tasks satisfying `p`, in
      order. */
  function Filtrar(es: seq<EstadoTarea>, p: EstadoTarea -> bool): (r: seq<EstadoTarea>)
    ensures |r| <= |es|
    ensures forall e :: e in r <==> e in es && p(e)
  {
    if es == [] then []
    else (if p(es[0]) then [es[0]] else []) + Filtrar(es[1..], p)
  }

  /** The listing of completed tasks. */
  function Completadas(es: seq<EstadoTarea>): (r: seq<EstadoTarea>)
    ensures forall e :: e in r <==> e in es && e.completada
  {
    Filtrar(es, Operaciones.TareaCompletada)
  }

  /** The listing of pending tasks. */
  function Pendientes(es: seq<EstadoTarea>): (r: seq<EstadoTarea>)
    ensures forall e :: e in r <==> e in es && !e.completada
  {
    Filtrar(es, Operaciones.TareaPendiente)
  }

  /** Filtering keeps order: filtering a concatenation concatenates the
      filtered halves. */
  lemma {:induction false} FiltrarConcat(a: seq<EstadoTarea>, b: seq<EstadoTarea>, p: EstadoTarea -> bool)
    ensures Filtrar(a + b, p) == Filtrar(a, p) + Filtrar(b, p)
  {
    if a == [] {
      assert a + b == b;
    } else {
      var cabeza := if p(a[0]) then [a[0]] else [];
      assert (a + b)[0] == a[0];
      assert (a + b)[1..] == a[1..] + b;
      FiltrarConcat(a[1..], b, p);
      assert Filtrar(a + b, p) == cabeza + (Filtrar(a[1..], p) + Filtrar(b, p));
    }
  }

  /** The completed and the pending listings split the tasks: every task is
      in exactly one of them, as often as it is in the list. */
  lemma {:induction false} Particion(es: seq<EstadoTarea>)
    ensures |Completadas(es)| + |Pendientes(es)| == |es|
    ensures multiset(Completadas(es)) + multiset(Pendientes(es)) == multiset(es)
  {
    if es != [] {
      Particion(es[1..]);
      assert es == [es[0]] + es[1..];
    }
  }

  /** The largest id of a non-empty list (`mapToInt(getId).max()`). */
  function MaxId(es: seq<EstadoTarea>): (r: int)
    requires es != []
    ensures exists i :: 0 <= i < |es| && es[i].id == r
    ensures forall i :: 0 <= i < |es| ==> es[i].id <= r
  {
    if |es| == 1 then es[0].id
    else
      var m := MaxId(es[1..]);
      assert forall i :: 1 <= i < |es| ==> es[i].id == es[1..][i - 1].id;
      if es[0].id >= m then es[0].id else m
  }

  // ---------------------------------------------------------------------
  // Operations
  // ---------------------------------------------------------------------

  /** `agregarTareaConDescripcion` / `crearTarea`: validate the description,
      then append a pending task with the next id and increment the
      counter. A rejected description leaves the store as it was. */
  function Agregar(a: Almacen, descripcion: Option<string>, limite: nat, ahora: Instante): (r: (Outcome, Almacen))
    ensures r.0 == ValidarDescripcion(descripcion, limite)
    ensures r.0.Fail? ==> r.1 == a
    ensures r.0.Pass? ==>
              |r.1.tareas| == |a.tareas| + 1 && r.1.tareas[..|a.tareas|] == a.tareas &&
              r.1.siguienteId == a.siguienteId + 1
    ensures r.0.Pass? ==>
              var e := r.1.tareas[|a.tareas|];
              e.id == a.siguienteId && e.descripcion == descripcion.value && !e.completada &&
              e.fechaCreacion == ahora && e.fechaCompletada.None?
  {
    match ValidarDescripcion(descripcion, limite)
    case Fail(error) => (Fail(error), a)
    case Pass =>
      (Pass, Almacen(a.tareas + [Nueva(a.siguienteId, descripcion.value, false, ahora)], a.siguienteId + 1))
  }

  /** Adding keeps the store invariant. */
  lemma AgregarInvariante(a: Almacen, descripcion: Option<string>, limite: nat, ahora: Instante)
    requires Invariante(a)
    ensures Invariante(Agregar(a, descripcion, limite, ahora).1)
  {
  }

  /** The id given to a new task is used by no task already in the store,
      and the new task is the only one with it. */
  lemma {:induction false} AgregarIdNuevo(a: Almacen, descripcion: Option<string>, limite: nat, ahora: Instante)
    requires Invariante(a)
    requires Agregar(a, descripcion, limite, ahora).0.Pass?
    ensures PrimerIndice(a.tareas, a.siguienteId).None?
    ensures PrimerIndice(Agregar(a, descripcion, limite, ahora).1.tareas, a.siguienteId) == Some(|a.tareas|)
  {
    var es := Agregar(a, descripcion, limite, ahora).1.tareas;
    assert forall j :: 0 <= j < |a.tareas| ==> es[j] == a.tareas[j];
  }

  /** The list without position `k`. */
  function QuitarEn(es: seq<EstadoTarea>, k: nat): (r: seq<EstadoTarea>)
    requires k < |es|
    ensures |r| == |es| - 1
    ensures forall j :: 0 <= j < k ==> r[j] == es[j]
    ensures forall j :: k <= j < |r| ==> r[j] == es[j + 1]
    ensures multiset(r) + multiset{es[k]} == multiset(es)
  {
    assert es == es[..k] + [es[k]] + es[k + 1..];
    es[..k] + es[k + 1..]
  }

  /** `eliminarTarea` with `entrada` the text typed for the id. With no
      tasks it does nothing; otherwise the text must parse as an `int`, the
      id must be positive and some task must have it; the first task with
      that id is removed and the rest keep their order. The counter does
      not change. */
  function Eliminar(a: Almacen, entrada: string): (r: (Outcome, Almacen))
    ensures r.0.Fail? ==> r.1 == a
    ensures a.tareas == [] ==> r == (Pass, a)
    ensures r.1.siguienteId == a.siguienteId
    ensures a.tareas != [] ==>
              (r.0.Fail? && r.0.error.Validacion? <==>
                 (ValidarYParsearEntero(entrada).Failure? || ValidarId(ValidarYParsearEntero(entrada).value).Fail?))
    ensures r.0 == Pass && a.tareas != [] ==>
              var id := ValidarYParsearEntero(entrada).value;
              var k := PrimerIndice(a.tareas, id);
              k.Some? && r.1.tareas == QuitarEn(a.tareas, k.value)
    ensures a.tareas != [] && ValidarYParsearEntero(entrada).Failure? ==> r == (Fail(Validacion(NoEsEntero)), a)
    ensures a.tareas != [] && ValidarYParsearEntero(entrada).Success? && ValidarYParsearEntero(entrada).value <= 0 ==>
              r == (Fail(Validacion(IdNoPositivo)), a)
    ensures a.tareas != [] ==>
              (r.0.Fail? && r.0.error.NoEncontrada? <==>
                 ValidarYParsearEntero(entrada).Success? && ValidarYParsearEntero(entrada).value > 0 &&
                 forall j :: 0 <= j < |a.tareas| ==> a.tareas[j].id != ValidarYParsearEntero(entrada).value)
    ensures a.tareas != [] && ValidarYParsearEntero(entrada).Success? && ValidarYParsearEntero(entrada).value > 0 ==>
              var id := ValidarYParsearEntero(entrada).value;
              var k := PrimerIndice(a.tareas, id);
              if k.Some? then r == (Pass, a.(tareas := QuitarEn(a.tareas, k.value)))
              else r == (Fail(NoEncontrada(id)), a)
  {
    if a.tareas == [] then (Pass, a)
    else
      match ValidarYParsearEntero(entrada)
      case Failure(error) => (Fail(error), a)
      case Success(id) =>
        match ValidarId(id)
        case Fail(error) => (Fail(error), a)
        case Pass =>
          match PrimerIndice(a.tareas, id)
          case None => (Fail(NoEncontrada(id)), a)
          case Some(k) => (Pass, a.(tareas := QuitarEn(a.tareas, k)))
  }

  /** An id typed for deletion that no task has fails with "not found" and
      leaves the store unchanged. */
  lemma EliminarAusente(a: Almacen, entrada: string)
    requires a.tareas != []
    requires ValidarYParsearEntero(entrada).Success?
    requires ValidarYParsearEntero(entrada).value > 0
    requires forall e :: e in a.tareas ==> e.id != ValidarYParsearEntero(entrada).value
    ensures Eliminar(a, entrada) == (Fail(NoEncontrada(ValidarYParsearEntero(entrada).value)), a)
  {
    var id := ValidarYParsearEntero(entrada).value;
    assert forall j :: 0 <= j < |a.tareas| ==> a.tareas[j] in a.tareas;
  }

  /** Deleting keeps the store invariant. */
  lemma EliminarInvariante(a: Almacen, entrada: string)
    requires Invariante(a)
    ensures Invariante(Eliminar(a, entrada).1)
  {
  }

  /** `marcarTareaCompletada` with `entrada` the text typed for the id. With
      no pending task it does nothing; otherwise the text must parse, the id
      must be positive and some task must have it; a task already completed
      is left alone, and otherwise only that task is completed at `ahora`. */
  function Marcar(a: Almacen, entrada: string, ahora: Instante): (r: (Outcome, Almacen))
    ensures r.0.Fail? ==> r.1 == a
    ensures Pendientes(a.tareas) == [] ==> r == (Pass, a)
    ensures r.1.siguienteId == a.siguienteId && |r.1.tareas| == |a.tareas|
    ensures r.1 != a ==>
              ValidarYParsearEntero(entrada).Success? &&
              var id := ValidarYParsearEntero(entrada).value;
              PrimerIndice(a.tareas, id).Some? &&
              var k := PrimerIndice(a.tareas, id).value;
              !a.tareas[k].completada &&
              r.1.tareas == a.tareas[k := TrasSetCompletada(a.tareas[k], true, ahora)]
    ensures Pendientes(a.tareas) != [] ==>
              (r.0.Fail? && r.0.error.Validacion? <==>
                 (ValidarYParsearEntero(entrada).Failure? || ValidarId(ValidarYParsearEntero(entrada).value).Fail?))
    ensures Pendientes(a.tareas) != [] && ValidarYParsearEntero(entrada).Failure? ==> r == (Fail(Validacion(NoEsEntero)), a)
    ensures Pendientes(a.tareas) != [] && ValidarYParsearEntero(entrada).Success? && ValidarYParsearEntero(entrada).value <= 0 ==>
              r == (Fail(Validacion(IdNoPositivo)), a)
    ensures Pendientes(a.tareas) != [] ==>
              (r.0.Fail? && r.0.error.NoEncontrada? <==>
                 ValidarYParsearEntero(entrada).Success? && ValidarYParsearEntero(entrada).value > 0 &&
                 forall j :: 0 <= j < |a.tareas| ==> a.tareas[j].id != ValidarYParsearEntero(entrada).value)
    ensures Pendientes(a.tareas) != [] && ValidarYParsearEntero(entrada).Success? && ValidarYParsearEntero(entrada).value > 0 ==>
              var id := ValidarYParsearEntero(entrada).value;
              var k := PrimerIndice(a.tareas, id);
              if k.None? then r == (Fail(NoEncontrada(id)), a)
              else if a.tareas[k.value].completada then r == (Pass, a)
              else r == (Pass, a.(tareas := a.tareas[k.value := TrasSetCompletada(a.tareas[k.value], true, ahora)]))
  {
    if Pendientes(a.tareas) == [] then (Pass, a)
    else
      match ValidarYParsearEntero(entrada)
      case Failure(error) => (Fail(error), a)
      case Success(id) =>
        match ValidarId(id)
        case Fail(error) => (Fail(error), a)
        case Pass =>
          match PrimerIndice(a.tareas, id)
          case None => (Fail(NoEncontrada(id)), a)
          case Some(k) =>
            if a.tareas[k].completada then (Pass, a)
            else (Pass, a.(tareas := a.tareas[k := TrasSetCompletada(a.tareas[k], true, ahora)]))
  }

  /** Marking keeps the store invariant, and the task it changes ends up
      completed with a completion time while every other task is untouched. */
  lemma MarcarInvariante(a: Almacen, entrada: string, ahora: Instante)
    requires Invariante(a)
    ensures Invariante(Marcar(a, entrada, ahora).1)
    ensures forall j :: 0 <= j < |a.tareas| ==>
              var e := Marcar(a, entrada, ahora).1.tareas[j];
              e == a.tareas[j] || (e.completada && e.fechaCompletada.Some? && e.id == a.tareas[j].id)
  {
  }

  /** Marking a task that is already completed changes nothing. */
  lemma MarcarCompletadaNoCambia(a: Almacen, entrada: string, ahora: Instante)
    requires ValidarYParsearEntero(entrada).Success?
    requires PrimerIndice(a.tareas, ValidarYParsearEntero(entrada).value).Some?
    requires a.tareas[PrimerIndice(a.tareas, ValidarYParsearEntero(entrada).value).value].completada
    ensures Marcar(a, entrada, ahora).1 == a
  {
  }

  /** The next id after a load as the code writes it: `max + 1` in Java
      `int` arithmetic. */
  function SiguienteIdComoEscrito(es: seq<EstadoTarea>): (r: int)
    requires es != []
    ensures IsInt32(MaxId(es) + 1) ==> r == MaxId(es) + 1
    ensures IsInt32(r)
  {
    Wrap32(MaxId(es) + 1)
  }

  /** The next id after a load, as intended: one more than the largest id. */
  function SiguienteIdTrasCarga(es: seq<EstadoTarea>): (r: int)
    requires es != []
    ensures IdsMenores(es, r)
    ensures forall n :: IdsMenores(es, n) ==> r <= n
  {
    MaxId(es) + 1
  }

  /** `cargarTareasDesdeArchivo`, given what `cargarTareas` read from the
      file (`CargarArchivo`): a failed read leaves the store unchanged;
      otherwise the loaded tasks are appended and, when the list is not
      empty, the counter becomes one more than the largest id of the whole
      list. */
  function CargarEn(a: Almacen, leido: Result<seq<Registro>>, ahora: Instante): (r: Almacen)
    ensures leido.Failure? ==> r == a
    ensures leido.Success? ==> r.tareas == a.tareas + Nuevas(leido.value, ahora)
    ensures leido.Success? && r.tareas != [] ==> r.siguienteId == SiguienteIdTrasCarga(r.tareas)
    ensures r.tareas == [] ==> r.siguienteId == a.siguienteId
  {
    match leido
    case Failure(_) => a
    case Success(rs) =>
      var ts := a.tareas + Nuevas(rs, ahora);
      Almacen(ts, if ts == [] then a.siguienteId else SiguienteIdTrasCarga(ts))
  }

  /** A load keeps the store invariant: a successful load recomputes the
      counter above every id, and a failed one leaves the store as it was. */
  lemma CargarEnInvariante(a: Almacen, leido: Result<seq<Registro>>, ahora: Instante)
    requires Invariante(a)
    ensures Invariante(CargarEn(a, leido, ahora))
  {
  }

  /** Saving a store and loading the file into the empty store gives back
      every task's id, description and flag, and a counter above every
      id, when no description holds a `|` or a line break. */
  lemma GuardarYCargar(a: Almacen, ahora: Instante)
    requires forall i :: 0 <= i < |a.tareas| ==> '|' !in a.tareas[i].descripcion && IsInt32(a.tareas[i].id)
    requires forall i :: 0 <= i < |a.tareas| ==> '\n' !in a.tareas[i].descripcion && '\r' !in a.tareas[i].descripcion
    ensures CargarArchivo(Some(Lineas(a.tareas))).Success?
    ensures var cargado := CargarEn(VACIO, CargarArchivo(Some(Lineas(a.tareas))), ahora);
            Registros(cargado.tareas) == Registros(a.tareas) && IdsMenores(a.tareas, cargado.siguienteId)
  {
    IdaYVuelta(a.tareas);
    CargarRegistrosDe(a.tareas, ahora);
  }

  /** Loading the records of some tasks into the empty store gives back
      those records and a counter above each of the tasks' ids. */
  lemma CargarRegistrosDe(es: seq<EstadoTarea>, ahora: Instante)
    ensures var cargado := CargarEn(VACIO, Success(Registros(es)), ahora);
            Registros(cargado.tareas) == Registros(es) && IdsMenores(es, cargado.siguienteId)
  {
    CargarDeVacio(Registros(es), ahora);
  }

  /** Loading records into the empty store gives tasks with those records
      and a counter above each of their ids. */
  lemma CargarDeVacio(rs: seq<Registro>, ahora: Instante)
    ensures var cargado := CargarEn(VACIO, Success(rs), ahora);
            Registros(cargado.tareas) == rs &&
            forall i :: 0 <= i < |rs| ==> rs[i].id < cargado.siguienteId
  {
    var ts := Nuevas(rs, ahora);
    assert [] + ts == ts;
    var cargado := CargarEn(VACIO, Success(rs), ahora);
    if rs != [] {
      forall i | 0 <= i < |rs| ensures rs[i].id < cargado.siguienteId {
        assert ts[i].id == rs[i].id;
      }
    }
  }

  /** The overflow of the reseeding as written: a file whose largest id is
      `Integer.MAX_VALUE` loads into a store whose counter wraps to
      `Integer.MIN_VALUE`, below that id, so the next task added reuses no
      fresh id but a negative one and the invariant is lost. */
  lemma DesbordeAlRecargar(e: EstadoTarea, ahora: Instante)
    requires e.id == INT_MAX && SinSeparadores(e.descripcion)
    ensures CargarArchivo(Some(Lineas([e]))) == Success([RegistroDe(e)])
    ensures var cargadas := Nuevas([RegistroDe(e)], ahora);
            SiguienteIdComoEscrito(cargadas) == INT_MIN &&
            !IdsMenores(cargadas, SiguienteIdComoEscrito(cargadas))
  {
    UnaTareaIdaYVuelta(e);
    var cargadas := Nuevas([RegistroDe(e)], ahora);
    assert MaxId(cargadas) == INT_MAX by { assert cargadas[0].id == INT_MAX; }
  }

  /** A description the file format carries unchanged: no `|`, no line
      break. */
  predicate SinSeparadores(d: string) {
    '|' !in d && '\n' !in d && '\r' !in d
  }

  /** Saving a single task and loading the file gives back its record. */
  lemma UnaTareaIdaYVuelta(e: EstadoTarea)
    requires IsInt32(e.id) && SinSeparadores(e.descripcion)
    ensures CargarArchivo(Some(Lineas([e]))) == Success([RegistroDe(e)])
  {
    IdaYVuelta([e]);
    assert Registros([e]) == [RegistroDe(e)];
  }

  /** Loading a single record into the empty store gives that task alone,
      with the counter one above its id when that fits in an `int`. */
  lemma CargarUna(r: Registro, ahora: Instante)
    requires IsInt32(r.id + 1)
    ensures var a := CargarEn(VACIO, Success([r]), ahora);
            a.tareas == Nuevas([r], ahora) && a.siguienteId == r.id + 1 &&
            SiguienteIdComoEscrito(a.tareas) == r.id + 1
  {
    var cargadas := Nuevas([r], ahora);
    assert [] + cargadas == cargadas;
    assert MaxId(cargadas) == r.id by { assert cargadas[0].id == r.id; }
  }

  /** The counter after an add as the code writes it: `siguienteId++` on a
      Java `int`. It is one more when that fits, and wraps to
      `Integer.MIN_VALUE` after `Integer.MAX_VALUE`. */
  function IncrementoComoEscrito(n: int): (r: int)
    requires IsInt32(n)
    ensures IsInt32(n + 1) ==> r == n + 1
    ensures n == INT_MAX ==> r == INT_MIN
    ensures IsInt32(r)
  {
    Wrap32(n + 1)
  }

  /** The overflow of `siguienteId++` as written: a file whose only task
      has id `Integer.MAX_VALUE - 1` loads, without overflow, into a store
      whose counter is `Integer.MAX_VALUE`; one add then hands out that id,
      and the counter as written wraps to `Integer.MIN_VALUE`, below the
      new id, so the invariant is lost and later adds get negative ids. */
  lemma DesbordeAlAgregar(e: EstadoTarea, limite: nat, ahora: Instante)
    requires e.id == INT_MAX - 1 && SinSeparadores(e.descripcion) && limite >= 1
    ensures CargarArchivo(Some(Lineas([e]))) == Success([RegistroDe(e)])
    ensures var a := CargarEn(VACIO, Success([RegistroDe(e)]), ahora);
            a.siguienteId == INT_MAX && SiguienteIdComoEscrito(a.tareas) == INT_MAX &&
            var b := Agregar(a, Some("y"), limite, ahora);
            b.0 == Pass && b.1.tareas[|a.tareas|].id == INT_MAX &&
            IncrementoComoEscrito(a.siguienteId) == INT_MIN &&
            !IdsMenores(b.1.tareas, IncrementoComoEscrito(a.siguienteId))
  {
    UnaTareaIdaYVuelta(e);
    CargarUna(RegistroDe(e), ahora);
    assert !EnBlanco("y") by { assert !EsEspacio("y"[0]); }
  }
}

=== FILE: app.dfy ===
/** The application object `AppTareas`: a list of `Tarea` objects and the
    next id to hand out, both updated in place by its operations. Both copies
    of the class (under `src/main/java/` and under `src/`) are modelled by the
    one class; the constant `copia` says which, and fixes both the numbering
    of the menu (module `Menu`) and the validation cap on descriptions, the
    constant `limite`. Each operation that changes the store is proved to
    change it exactly as its counterpart over values says:
    `AgregarTareaConDescripcion` as `Agregar`, `EliminarTarea` as
    `Eliminar`, `MarcarTareaCompletada` as `Marcar`,
    `CargarTareasDesdeArchivo` as `CargarEn` and `Iniciar` as `Sesion`. */
module App {
  import opened Common
  import opened Fechas
  import opened Modelo
  import opened Validacion
  import opened Persistencia
  import opened Almacen
  import opened Menu
  import Operaciones

  class AppTareas {
    /** Which copy of the class this is; it fixes the menu numbering. */
    const copia: Copia
    /** The description cap of the validator this copy calls. */
    const limite: nat
    var tareas: seq<Tarea>
    var siguienteId: int

    /** The store as a value: the states of the task objects, in order,
        and the counter. */
    function Vista(): Almacen
      reads this, tareas
    {
      Almacen(Estados(tareas), siguienteId)
    }

    /** No task object is in the list twice, and the store invariant
        holds. */
    ghost predicate Valid()
      reads this, tareas
    {
      Distintas(tareas) && Invariante(Vista())
    }

    /** Both constructors: an empty list, next id 1, then the tasks of the
        file are loaded when `cargarAutomaticamente` holds (always, for the
        constructor without arguments). `archivo` is the content of the
        file, `None` when it does not exist. */
    constructor (copia: Copia, archivo: Option<seq<string>>, cargarAutomaticamente: bool, ahora: Instante)
      ensures this.copia == copia && this.limite == LimiteDe(copia)
      ensures Valid()
      ensures cargarAutomaticamente ==> Vista() == CargarEn(VACIO, CargarArchivo(archivo), ahora)
      ensures !cargarAutomaticamente ==> Vista() == VACIO
      ensures forall t :: t in tareas ==> fresh(t)
    {
      this.copia := copia;
      this.limite := LimiteDe(copia);
      this.tareas := [];
      this.siguienteId := 1;
      new;
      VacioInvariante();
      if cargarAutomaticamente {
        CargarTareasDesdeArchivo(archivo, ahora);
      }
    }

    /** `iniciar` over the rounds `rondas` (in the menu of `copia`): each
        round reads the menu line, updates `opcion`, validates it against
        `OPCIONES_VALIDAS` and runs the chosen action; errors are caught and
        the loop goes on until `opcion` is 7. The store and the rounds
        consumed are those of the session `Sesion`; the tasks are saved
        exactly when the session left on 7 (the `case 7` of the `switch`,
        here right after the loop, as nothing runs between the two), and
        `guardado` is what the save gave. Running out of rounds ends the
        session without saving. */
    method Iniciar(rondas: seq<Ronda>, escribible: bool)
      returns (consumidas: nat, guardado: Option<Result<seq<string>>>)
      requires Valid()
      modifies this, set t | t in tareas
      ensures Valid()
      ensures var fin := Sesion(copia, limite, old(Vista()), 0, rondas);
              Vista() == fin.almacen && consumidas == fin.consumidas && (guardado.Some? <==> fin.opcion == SALIR)
      ensures guardado.Some? ==> (guardado.value.Failure? <==> !escribible)
      ensures guardado.Some? && guardado.value.Success? ==> guardado.value.value == Lineas(Vista().tareas)
    {
      var opcionesValidas := new int[7](i => i + 1);
      assert opcionesValidas[..] == OPCIONES_VALIDAS;
      var opcion;
      consumidas, opcion := Bucle(rondas, opcionesValidas);
      guardado := None;
      if opcion == SALIR {
        var r := GuardarTareasEnArchivo(escribible);
        guardado := Some(r);
      }
    }

    /** The `do … while (opcion != 7)` loop of `iniciar`, from `opcion` 0:
        it stops where the session `Sesion` stops. */
    method Bucle(rondas: seq<Ronda>, opcionesValidas: array<int>)
      returns (consumidas: nat, opcion: int)
      requires Valid()
      requires opcionesValidas[..] == OPCIONES_VALIDAS
      modifies this, set t | t in tareas
      ensures Valid()
      ensures Fin(Vista(), consumidas, opcion) == Sesion(copia, limite, old(Vista()), 0, rondas)
      ensures forall t :: t in tareas ==> t in old(tareas) || fresh(t)
    {
      ghost var total := Sesion(copia, limite, Vista(), 0, rondas);
      opcion := 0;
      consumidas := 0;
      while consumidas < |rondas|
        invariant consumidas <= |rondas| && consumidas <= total.consumidas
        invariant Valid()
        invariant Sesion(copia, limite, Vista(), opcion, rondas[consumidas..]) == total.(consumidas := total.consumidas - consumidas)
        invariant forall t :: t in tareas ==> t in old(tareas) || fresh(t)
        decreases |rondas| - consumidas
      {
        assert rondas[consumidas..][0] == rondas[consumidas] && rondas[consumidas..][1..] == rondas[consumidas + 1..];
        opcion := Vuelta(rondas[consumidas..], opcion, opcionesValidas, total.(consumidas := total.consumidas - consumidas));
        consumidas := consumidas + 1;
        if opcion == SALIR {
          return;
        }
      }
    }

    /** One round of the loop of `iniciar`: read the menu line, run the
        chosen action. The round is the first step of the session over
        `rondas`, which stops at `fin`: when the round sets `opcion` to 7
        the session stops here, and otherwise the rest of it runs from the
        new store and option. */
    method Vuelta(rondas: seq<Ronda>, opcion: int, opcionesValidas: array<int>, ghost fin: Fin)
      returns (nueva: int)
      requires Valid() && rondas != []
      requires opcionesValidas[..] == OPCIONES_VALIDAS
      requires Sesion(copia, limite, Vista(), opcion, rondas) == fin
      modifies this, tareas
      ensures Valid()
      ensures nueva == SALIR ==> fin == Fin(Vista(), 1, SALIR)
      ensures nueva != SALIR ==> 0 < fin.consumidas && Sesion(copia, limite, Vista(), nueva, rondas[1..]) == fin.(consumidas := fin.consumidas - 1)
      ensures forall t :: t in tareas ==> t in old(tareas) || fresh(t)
    {
      ghost var antes := Vista();
      var accion;
      nueva, accion := LeerOpcion(copia, rondas[0].entrada, opcion, opcionesValidas);
      Ejecutar(accion, rondas[0]);
      SesionPaso(copia, limite, antes, opcion, rondas, Vista(), nueva);
    }

    /** The menu line of one round of `iniciar`: `opcion` becomes the parsed
        number, which `validarOpcionMenu` then checks against
        `opcionesValidas`; the result is the new `opcion` and the action to
        run, none when the line is not a number or not a valid option. */
    static method LeerOpcion(copia: Copia, entrada: string, opcion: int, opcionesValidas: array<int>)
      returns (nueva: int, accion: Option<Accion>)
      requires opcionesValidas[..] == OPCIONES_VALIDAS
      ensures nueva == OpcionTras(opcion, entrada)
      ensures accion == Seleccion(copia, entrada)
    {
      nueva := opcion;
      accion := None;
      var leida := ValidarYParsearEntero(entrada);
      if leida.Success? {
        nueva := leida.value;
        var valida := ValidarOpcionMenu(nueva, opcionesValidas);
        if valida.Pass? {
          accion := AccionDe(copia, nueva);
        }
      }
    }

    /** The `switch` of `iniciar` for one round: the chosen action, if any,
        run on this object. The listings print and change nothing; the save
        that leaving does is made by `Iniciar` right after the round. */
    method Ejecutar(accion: Option<Accion>, ronda: Ronda)
      requires Valid()
      modifies this, tareas
      ensures Valid()
      ensures Vista() == Aplicar(accion, old(Vista()), limite, ronda)
      ensures forall t :: t in tareas ==> t in old(tareas) || fresh(t)
    {
      match accion {
        case Some(AgregarTarea) =>
          var _ := AgregarTareaConDescripcion(Some(ronda.dato), ronda.ahora);
        case Some(EliminarTarea) =>
          var _ := EliminarTarea(ronda.dato);
        case Some(MarcarCompletada) =>
          var _ := MarcarTareaCompletada(ronda.dato, ronda.ahora);
        case _ =>
      }
    }

    /** `agregarTareaConDescripcion` (and `crearTarea` once the description
        is read): a valid description becomes a new pending task at the end
        of the list with the next id, which is then incremented; an invalid
        one is rejected and nothing changes. */
    method AgregarTareaConDescripcion(descripcion: Option<string>, ahora: Instante) returns (r: Result<Tarea>)
      requires Valid()
      modifies this
      ensures Valid()
      ensures r.Failure? <==> ValidarDescripcion(descripcion, limite).Fail?
      ensures r.Failure? ==> r.error == ValidarDescripcion(descripcion, limite).error
      ensures Vista() == Agregar(old(Vista()), descripcion, limite, ahora).1
      ensures r.Success? ==> fresh(r.value) && tareas == old(tareas) + [r.value]
      ensures r.Failure? ==> tareas == old(tareas)
    {
      var v := ValidarDescripcion(descripcion, limite);
      if v.Fail? {
        return Failure(v.error);
      }
      ghost var despues := Agregar(Vista(), descripcion, limite, ahora).1;
      AgregarInvariante(Vista(), descripcion, limite, ahora);
      var nueva := new Tarea(siguienteId, descripcion.value, false, ahora);
      DistintasConcat(tareas, [nueva]);
      EstadosConcat(tareas, [nueva]);
      assert Estados(tareas + [nueva]) == despues.tareas;
      tareas, siguienteId := tareas + [nueva], siguienteId + 1;
      assert Vista() == despues;
      return Success(nueva);
    }

    /** `eliminarTarea` with `entrada` the line typed for the id: nothing
        happens on an empty list; otherwise the line must parse, the id must
        be positive and some task must have it, and the first such task is
        removed. Since no object is in the list twice, removing that object
        (`List.remove`, which compares by identity) removes its position. */
    method EliminarTarea(entrada: string) returns (r: Outcome)
      requires Valid()
      modifies this
      ensures Valid()
      ensures (r, Vista()) == Eliminar(old(Vista()), entrada)
      ensures forall t :: t in tareas ==> t in old(tareas)
    {
      if tareas == [] {
        return Pass;
      }
      var p := ValidarYParsearEntero(entrada);
      if p.Failure? {
        return Fail(p.error);
      }
      var id := p.value;
      var v := ValidarId(id);
      if v.Fail? {
        return Fail(v.error);
      }
      var k := PrimerIndice(Estados(tareas), id);
      if k.None? {
        return Fail(NoEncontrada(id));
      }
      ghost var despues := Eliminar(Vista(), entrada);
      assert despues == (Pass, Vista().(tareas := QuitarEn(Estados(tareas), k.value)));
      EliminarInvariante(Vista(), entrada);
      var i := k.value;
      DistintasQuitar(tareas, i);
      EstadosQuitar(tareas, i);
      tareas := tareas[..i] + tareas[i + 1..];
      assert Vista() == despues.1;
      return Pass;
    }

    /** `marcarTareaCompletada` with `entrada` the line typed for the id:
        nothing happens when no task is pending; otherwise the line must
        parse, the id must be positive and some task must have it; a task
        already completed is left alone, and otherwise it is completed at
        `ahora`. Only that one object changes. */
    method MarcarTareaCompletada(entrada: string, ahora: Instante) returns (r: Outcome)
      requires Valid()
      modifies tareas
      ensures Valid()
      ensures (r, Vista()) == Marcar(old(Vista()), entrada, ahora)
    {
      if Pendientes(Estados(tareas)) == [] {
        return Pass;
      }
      var p := ValidarYParsearEntero(entrada);
      if p.Failure? {
        return Fail(p.error);
      }
      var id := p.value;
      var v := ValidarId(id);
      if v.Fail? {
        return Fail(v.error);
      }
      var k := PrimerIndice(Estados(tareas), id);
      if k.None? {
        return Fail(NoEncontrada(id));
      }
      var tarea := tareas[k.value];
      if tarea.completada {
        return Pass;
      }
      ghost var antes := Estados(tareas);
      ghost var despues := Marcar(Vista(), entrada, ahora);
      assert despues == (Pass, Vista().(tareas := antes[k.value := TrasSetCompletada(antes[k.value], true, ahora)]));
      Completar(k.value, ahora);
      return Pass;
    }

    /** `MARCAR_COMPLETADA.accept(tarea)` on the task at position `k`: that
        task is completed at `ahora` and no other task changes. */
    method Completar(k: nat, ahora: Instante)
      requires Valid() && k < |tareas|
      modifies tareas[k]
      ensures Valid()
      ensures Estados(tareas) == old(Estados(tareas))[k := TrasSetCompletada(old(tareas[k].Estado()), true, ahora)]
    {
      ghost var antes := Estados(tareas);
      ghost var nuevo := antes[k := TrasSetCompletada(antes[k], true, ahora)];
      var tarea := tareas[k];
      Operaciones.MarcarCompletada(tarea, ahora);
      forall j | 0 <= j < |tareas|
        ensures Estados(tareas)[j] == nuevo[j]
      {
        if j != k {
          assert tareas[j] != tarea;
        }
      }
      assert Estados(tareas) == nuevo;
    }

    /** `buscarTareaPorId`: the first task object with id `id`, or none
        (`null`) when no task has it. */
    function BuscarTareaPorId(id: int): (r: Option<Tarea>)
      reads this, tareas
      ensures r.None? <==> forall t :: t in tareas ==> t.id != id
      ensures r.Some? ==> exists k :: 0 <= k < |tareas| && tareas[k] == r.value && r.value.id == id &&
                                      forall j :: 0 <= j < k ==> tareas[j].id != id
    {
      match PrimerIndice(Estados(tareas), id)
      case None => None
      case Some(k) => Some(tareas[k])
    }

    /** `cargarTareasDesdeArchivo`: the tasks read from the file are
        appended and the counter is reseeded from the whole list; when the
        file cannot be read (`PersistenciaException`) nothing changes. The
        reseeding is the intended `max + 1`; the overflow of the code as
        written is `Almacen.DesbordeAlRecargar`. */
    method CargarTareasDesdeArchivo(archivo: Option<seq<string>>, ahora: Instante)
      requires Valid()
      modifies this
      ensures Valid()
      ensures Vista() == CargarEn(old(Vista()), CargarArchivo(archivo), ahora)
      ensures forall t :: t in tareas ==> t in old(tareas) || fresh(t)
    {
      var cargadas := CargarTareas(archivo, ahora);
      Incorporar(cargadas, CargarArchivo(archivo), ahora);
    }

    /** The part of `cargarTareasDesdeArchivo` after the file is read:
        `addAll` of the tasks read, then the reseeding of the counter; a
        failed read (`leido`) changes nothing. */
    method Incorporar(cargadas: Result<seq<Tarea>>, ghost leido: Result<seq<Registro>>, ahora: Instante)
      requires Valid()
      requires cargadas.Failure? <==> leido.Failure?
      requires cargadas.Success? ==>
                 Estados(cargadas.value) == Nuevas(leido.value, ahora) && Distintas(cargadas.value) &&
                 forall t :: t in cargadas.value ==> t !in tareas
      modifies this
      ensures Valid()
      ensures Vista() == CargarEn(old(Vista()), leido, ahora)
      ensures cargadas.Success? ==> tareas == old(tareas) + cargadas.value
      ensures cargadas.Failure? ==> tareas == old(tareas)
    {
      if cargadas.Failure? {
        return;
      }
      ghost var antes := Vista();
      ghost var despues := CargarEn(antes, leido, ahora);
      CargarEnInvariante(antes, leido, ahora);
      DistintasConcat(tareas, cargadas.value);
      EstadosConcat(tareas, cargadas.value);
      tareas := tareas + cargadas.value;
      var estados := Estados(tareas);
      assert estados == despues.tareas;
      if tareas != [] {
        siguienteId := SiguienteIdTrasCarga(estados);
      }
      assert siguienteId == despues.siguienteId;
      assert Vista() == despues;
    }

    /** `guardarTareasEnArchivo`: the lines written, one per task in list
        order, or the failure reported when the file cannot be written. */
    method GuardarTareasEnArchivo(escribible: bool) returns (r: Result<seq<string>>)
      ensures r.Failure? <==> !escribible
      ensures r.Success? ==> r.value == Lineas(Vista().tareas)
    {
      r := GuardarTareas(tareas, escribible);
    }

    /** `setSiguienteId`: sets the counter as given; the store stays valid
        exactly when the value is above every id. */
    method SetSiguienteId(siguienteId: int)
      requires Valid()
      modifies this
      ensures this.siguienteId == siguienteId && tareas == old(tareas)
      ensures Valid() <==> IdsMenores(Estados(tareas), siguienteId)
    {
      this.siguienteId := siguienteId;
    }
  }
}

=== FILE: common.dfy ===
/** Shared value types: optional values, the error taxonomy of the task
    manager, and Java's 32-bit `int` range. */
module Common {

  datatype Option<+T> = None | Some(value: T)

  /** A Java method that returns a value or throws one of the application's
      exceptions. */
  datatype Result<+T> = Success(value: T) | Failure(error: Error)

  /** A Java `void` method that returns normally or throws. */
  datatype Outcome = Pass | Fail(error: Error)

  /** Why a `ValidacionException` was thrown. */
  datatype Motivo =
    | IdNoPositivo          // "El ID debe ser un número positivo mayor que 0"
    | DescripcionVacia      // "La descripción no puede estar vacía"
    | DescripcionLarga      // "La descripción no puede tener más de N caracteres"
    | OpcionInvalida        // "Opción inválida. ..."
    | NoEsEntero            // "Debe ingresar un número entero válido"

  /** The exception hierarchy under `TareaException`, folded into one type. */
  datatype Error =
    | Validacion(motivo: Motivo)   // ValidacionException
    | NoEncontrada(id: int)        // TareaNoEncontradaException
    | Persistencia                 // PersistenciaException

  const INT_MIN: int := -0x8000_0000
  const INT_MAX: int := 0x7FFF_FFFF

  /** The values a Java `int` can hold. */
  predicate IsInt32(n: int) {
    INT_MIN <= n <= INT_MAX
  }

  /** Java `int` arithmetic: the mathematical result reduced into the 32-bit
      two's-complement range. */
  function Wrap32(n: int): (r: int)
    ensures IsInt32(r)
    ensures (r - n) % 0x1_0000_0000 == 0
    ensures IsInt32(n) ==> r == n
    ensures INT_MAX < n <= INT_MAX + 0x1_0000_0000 ==> r == n - 0x1_0000_0000
  {
    (n - INT_MIN) % 0x1_0000_0000 + INT_MIN
  }
}

=== FILE: fechas.dfy ===
/** The task timestamps. `LocalDateTime.now()` is read from the clock, which
    this model does not have: every operation that reads the clock receives
    the instant as a parameter. Only the fields that the pattern
    `dd/MM/yyyy HH:mm` prints are kept. */
module Fechas {
  import opened Common
  import opened Texto

  datatype Fecha = Fecha(dia: nat, mes: nat, anio: nat, hora: nat, minuto: nat)

  /** The field ranges of a `LocalDateTime`, with the year in 1..9999: the
      years whose year-of-era, which is what `yyyy` prints, is the year
      itself and fits in four digits. */
  predicate FechaValida(f: Fecha) {
    1 <= f.dia <= 31 && 1 <= f.mes <= 12 && 1 <= f.anio <= 9999 && f.hora < 24 && f.minuto < 60
  }

  type Instante = f: Fecha | FechaValida(f) witness Fecha(1, 1, 2000, 0, 0)

  /** The characters a formatted instant is made of. */
  predicate CaracterDeFecha(c: char) {
    '0' <= c <= '9' || c == '/' || c == ' ' || c == ':'
  }

  /** `n` written with exactly `ancho` digits, zero-padded on the left. */
  function Relleno(n: nat, ancho: nat): (r: string)
    requires n < Potencia10(ancho)
    ensures |r| == ancho
    ensures SoloDigitos(r) && ValorDecimal(r) == n
  {
    if ancho == 0 then ""
    else
      var r := Relleno(n / 10, ancho - 1) + [Digito(n % 10)];
      assert r[..|r| - 1] == Relleno(n / 10, ancho - 1);
      r
  }

  /** `DateTimeFormatter.ofPattern("dd/MM/yyyy HH:mm")`: sixteen
      characters, the day, month, year, hour and minute zero-padded to
      two, two, four, two and two digits, separated by `/`, `/`, a space
      and `:` (that the fields hold the instant is `FormatearLeido`). In
      particular it never contains the `|` of the file format nor a line
      break. */
  function Formatear(f: Instante): (r: string)
    ensures |r| == 16
    ensures r[2] == '/' && r[5] == '/' && r[10] == ' ' && r[13] == ':'
    ensures forall i :: 0 <= i < |r| ==> CaracterDeFecha(r[i])
    ensures '|' !in r && '\n' !in r && '\r' !in r
  {
    var r := Relleno(f.dia, 2) + "/" + Relleno(f.mes, 2) + "/" + Relleno(f.anio, 4)
      + " " + Relleno(f.hora, 2) + ":" + Relleno(f.minuto, 2);
    assert forall i :: 0 <= i < |r| ==> CaracterDeFecha(r[i]);
    r
  }

  /** Reading the formatted text back with the same pattern gives the
      instant: each field holds the day, month, year, hour or minute. */
  lemma FormatearLeido(f: Instante)
    ensures LeerFecha(Formatear(f)) == Some(f)
  {
    var dd, mm, yyyy, hh, mi := Relleno(f.dia, 2), Relleno(f.mes, 2), Relleno(f.anio, 4), Relleno(f.hora, 2), Relleno(f.minuto, 2);
    var r := Formatear(f);
    assert r == dd + "/" + mm + "/" + yyyy + " " + hh + ":" + mi;
    assert r[0..2] == dd && r[3..5] == mm && r[6..10] == yyyy && r[11..13] == hh && r[14..16] == mi;
  }

  /** Reading a text in the pattern `dd/MM/yyyy HH:mm`: the separators at
      their places and digits in the five fields, which give the day,
      month, year, hour and minute. */
  function LeerFecha(s: string): Option<Fecha> {
    if |s| == 16 && s[2] == '/' && s[5] == '/' && s[10] == ' ' && s[13] == ':'
       && SoloDigitos(s[0..2]) && SoloDigitos(s[3..5]) && SoloDigitos(s[6..10])
       && SoloDigitos(s[11..13]) && SoloDigitos(s[14..16])
    then Some(Fecha(ValorDecimal(s[0..2]), ValorDecimal(s[3..5]), ValorDecimal(s[6..10]),
                    ValorDecimal(s[11..13]), ValorDecimal(s[14..16])))
    else None
  }

  /** Different instants are formatted differently: the text determines
      every field the pattern prints. */
  lemma FormatearInyectiva(f: Instante, g: Instante)
    ensures Formatear(f) == Formatear(g) <==> f == g
  {
    FormatearLeido(f);
    FormatearLeido(g);
  }
}

=== FILE: menu.dfy ===
/** The menu loop of `iniciar`, as values: which action a typed line
    selects in each copy of the application, how the variable `opcion`
    evolves, and what a whole session does to the store. The two copies
    offer the same seven actions under different numbers; both leave the
    loop on 7. */
module Menu {
  import opened Common
  import opened Fechas
  import opened Validacion
  import opened Almacen

  datatype Accion =
    | AgregarTarea
    | MostrarTodas
    | EliminarTarea
    | MarcarCompletada
    | MostrarCompletadas
    | MostrarPendientes
    | Salir

  /** The copy under `src/main/java/` and the copy under `src/`. */
  datatype Copia = EnMain | EnSrc

  /** The description cap of the validator each copy calls: the main copy
      imports the 150-character validator, the `src/` copy the
      200-character one. */
  function LimiteDe(copia: Copia): nat {
    match copia
    case EnMain => LIMITE_MAIN
    case EnSrc => LIMITE_SRC
  }

  /** The array `opcionesValidas` both copies pass to `validarOpcionMenu`. */
  const OPCIONES_VALIDAS: seq<int> := [1, 2, 3, 4, 5, 6, 7]

  /** The option that ends the loop. */
  const SALIR: int := 7

  /** The `switch` of `iniciar`: the action behind a menu number. */
  function AccionDe(copia: Copia, opcion: int): (r: Option<Accion>)
    ensures r.Some? <==> opcion in OPCIONES_VALIDAS
    ensures r == Some(Salir) <==> opcion == SALIR
  {
    if opcion == 1 then Some(AgregarTarea)
    else if opcion == 5 then Some(MostrarCompletadas)
    else if opcion == 6 then Some(MostrarPendientes)
    else if opcion == 7 then Some(Salir)
    else
      match copia
      case EnMain =>
        if opcion == 2 then Some(MostrarTodas)
        else if opcion == 3 then Some(EliminarTarea)
        else if opcion == 4 then Some(MarcarCompletada)
        else None
      case EnSrc =>
        if opcion == 2 then Some(EliminarTarea)
        else if opcion == 3 then Some(MarcarCompletada)
        else if opcion == 4 then Some(MostrarTodas)
        else None
  }

  /** The number `mostrarMenu` prints for an action. */
  function OpcionDe(copia: Copia, accion: Accion): (r: int)
    ensures r in OPCIONES_VALIDAS
  {
    match accion
    case AgregarTarea => 1
    case MostrarTodas => if copia == EnMain then 2 else 4
    case EliminarTarea => if copia == EnMain then 3 else 2
    case MarcarCompletada => if copia == EnMain then 4 else 3
    case MostrarCompletadas => 5
    case MostrarPendientes => 6
    case Salir => 7
  }

  /** In each copy the menu numbers and the actions correspond one to one:
      every action has exactly one number, and every valid number names
      one action. */
  lemma NumeracionBiyectiva(copia: Copia)
    ensures forall x :: AccionDe(copia, OpcionDe(copia, x)) == Some(x)
    ensures forall n :: n in OPCIONES_VALIDAS ==> OpcionDe(copia, AccionDe(copia, n).value) == n
  {
    forall n | n in OPCIONES_VALIDAS
      ensures OpcionDe(copia, AccionDe(copia, n).value) == n
    {
      assert n == 1 || n == 2 || n == 3 || n == 4 || n == 5 || n == 6 || n == 7;
    }
  }

  /** The copies agree on adding (1), the two filtered listings (5, 6)
      and leaving (7); they differ on 2, 3 and 4, where the copy under
      `src/` puts deleting and marking before the full listing. */
  lemma NumeracionesComparadas()
    ensures forall n :: n in [1, 5, 6, 7] ==> AccionDe(EnMain, n) == AccionDe(EnSrc, n)
    ensures forall n :: n in [2, 3, 4] ==> AccionDe(EnMain, n) != AccionDe(EnSrc, n)
    ensures forall n :: n in [2, 3, 4] ==> AccionDe(EnSrc, n) == AccionDe(EnMain, if n == 2 then 3 else if n == 3 then 4 else 2)
  {
  }

  /** One round of the loop: the menu line, the line the chosen action
      reads (the description or the id; ignored by the other actions) and
      the instant the round happens at. */
  datatype Ronda = Ronda(entrada: string, dato: string, ahora: Instante)

  /** The variable `opcion` after the menu line: the parsed number, even
      when `validarOpcionMenu` then rejects it, or the previous value when
      the line is not a number (the exception comes before the
      assignment). */
  function OpcionTras(opcion: int, entrada: string): (r: int)
    ensures ValidarYParsearEntero(entrada).Success? ==> r == ValidarYParsearEntero(entrada).value
    ensures ValidarYParsearEntero(entrada).Failure? ==> r == opcion
  {
    match ValidarYParsearEntero(entrada)
    case Success(n) => n
    case Failure(_) => opcion
  }

  /** The action the menu line runs: the line must parse and the number
      must be one of `OPCIONES_VALIDAS`. */
  function Seleccion(copia: Copia, entrada: string): (r: Option<Accion>)
    ensures r.Some? <==> ValidarYParsearEntero(entrada).Success? && ValidarYParsearEntero(entrada).value in OPCIONES_VALIDAS
    ensures r == Some(Salir) <==> ValidarYParsearEntero(entrada) == Success(SALIR)
  {
    match ValidarYParsearEntero(entrada)
    case Success(n) => AccionDe(copia, n)
    case Failure(_) => None
  }

  /** What the chosen action does to the store. The listings and leaving
      change nothing (leaving saves, which does not touch the store);
      errors thrown by an action are caught by the loop, and the
      operations leave the store as it was when they throw. */
  function Aplicar(accion: Option<Accion>, a: Almacen, limite: nat, ronda: Ronda): (b: Almacen)
    ensures accion !in {Some(AgregarTarea), Some(EliminarTarea), Some(MarcarCompletada)} ==> b == a
  {
    match accion
    case Some(AgregarTarea) => Agregar(a, Some(ronda.dato), limite, ronda.ahora).1
    case Some(EliminarTarea) => Eliminar(a, ronda.dato).1
    case Some(MarcarCompletada) => Marcar(a, ronda.dato, ronda.ahora).1
    case _ => a
  }

  /** Every action keeps the store invariant. */
  lemma AplicarInvariante(accion: Option<Accion>, a: Almacen, limite: nat, ronda: Ronda)
    requires Invariante(a)
    ensures Invariante(Aplicar(accion, a, limite, ronda))
  {
    match accion
    case Some(AgregarTarea) => AgregarInvariante(a, Some(ronda.dato), limite, ronda.ahora);
    case Some(EliminarTarea) => EliminarInvariante(a, ronda.dato);
    case Some(MarcarCompletada) => MarcarInvariante(a, ronda.dato, ronda.ahora);
    case _ =>
  }

  /** Where a session stops: the store, the number of rounds consumed and
      the value `opcion` was left with. */
  datatype Fin = Fin(almacen: Almacen, consumidas: nat, opcion: int)

  /** A session of the `do … while (opcion != 7)` loop over the rounds
      `rondas`, from store `a` with `opcion` as it stands. The loop stops
      after the round that sets `opcion` to 7, or when the rounds run out. */
  function Sesion(copia: Copia, limite: nat, a: Almacen, opcion: int, rondas: seq<Ronda>): (r: Fin)
    ensures r.consumidas <= |rondas|
    ensures rondas != [] ==> r.consumidas > 0
    decreases |rondas|, 1
  {
    if rondas == [] then Fin(a, 0, opcion) else PrimeraRonda(copia, limite, a, opcion, rondas)
  }

  /** A session with at least one round left: the first round runs its
      action; it is the last one when it sets `opcion` to 7. */
  function PrimeraRonda(copia: Copia, limite: nat, a: Almacen, opcion: int, rondas: seq<Ronda>): (r: Fin)
    requires rondas != []
    ensures 0 < r.consumidas <= |rondas|
    decreases |rondas|, 0
  {
    var b := Aplicar(Seleccion(copia, rondas[0].entrada), a, limite, rondas[0]);
    var op := OpcionTras(opcion, rondas[0].entrada);
    if op == SALIR then Fin(b, 1, op)
    else
      var resto := Sesion(copia, limite, b, op, rondas[1..]);
      resto.(consumidas := resto.consumidas + 1)
  }

  /** One round of a session: the round that sets `opcion` to 7 is the
      last one; any other round is followed by the rest of the session. */
  lemma SesionPaso(copia: Copia, limite: nat, a: Almacen, opcion: int, rondas: seq<Ronda>, b: Almacen, op: int)
    requires rondas != []
    requires b == Aplicar(Seleccion(copia, rondas[0].entrada), a, limite, rondas[0])
    requires op == OpcionTras(opcion, rondas[0].entrada)
    ensures op == SALIR ==> Sesion(copia, limite, a, opcion, rondas) == Fin(b, 1, SALIR)
    ensures op != SALIR ==>
              var resto := Sesion(copia, limite, b, op, rondas[1..]);
              Sesion(copia, limite, a, opcion, rondas) == resto.(consumidas := resto.consumidas + 1)
  {
    assert Sesion(copia, limite, a, opcion, rondas) == PrimeraRonda(copia, limite, a, opcion, rondas);
  }

  /** A whole session keeps the store invariant. */
  lemma {:induction false} SesionInvariante(copia: Copia, limite: nat, a: Almacen, opcion: int, rondas: seq<Ronda>)
    requires Invariante(a)
    ensures Invariante(Sesion(copia, limite, a, opcion, rondas).almacen)
    decreases |rondas|
  {
    if rondas != [] {
      assert Sesion(copia, limite, a, opcion, rondas) == PrimeraRonda(copia, limite, a, opcion, rondas);
      var b := Aplicar(Seleccion(copia, rondas[0].entrada), a, limite, rondas[0]);
      AplicarInvariante(Seleccion(copia, rondas[0].entrada), a, limite, rondas[0]);
      var op := OpcionTras(opcion, rondas[0].entrada);
      if op != SALIR {
        SesionInvariante(copia, limite, b, op, rondas[1..]);
      }
    }
  }

  /** The position of the first round whose menu line reads as 7, or the
      number of rounds when there is none. */
  function PrimeraSalida(rondas: seq<Ronda>): (r: nat)
    ensures r <= |rondas|
    ensures r < |rondas| ==> ValidarYParsearEntero(rondas[r].entrada) == Success(SALIR)
    ensures forall i :: 0 <= i < r ==> ValidarYParsearEntero(rondas[i].entrada) != Success(SALIR)
  {
    if rondas == [] then 0
    else if ValidarYParsearEntero(rondas[0].entrada) == Success(SALIR) then 0
    else PrimeraSalida(rondas[1..]) + 1
  }

  /** Whatever the actions do, a session that has not yet left ends right
      after the first line that reads as 7 and reads no further, leaving
      `opcion` at 7; without such a line it consumes every round and
      `opcion` is not 7 at the end. A line that is not a number keeps the
      previous option, which is not 7, so it never ends the loop. */
  lemma {:induction false} SesionTermina(copia: Copia, limite: nat, a: Almacen, opcion: int, rondas: seq<Ronda>)
    requires opcion != SALIR
    ensures var fin := Sesion(copia, limite, a, opcion, rondas);
            fin.consumidas == (if PrimeraSalida(rondas) < |rondas| then PrimeraSalida(rondas) + 1 else |rondas|) &&
            (fin.opcion == SALIR <==> PrimeraSalida(rondas) < |rondas|)
    decreases |rondas|
  {
    if rondas != [] {
      assert Sesion(copia, limite, a, opcion, rondas) == PrimeraRonda(copia, limite, a, opcion, rondas);
      var b := Aplicar(Seleccion(copia, rondas[0].entrada), a, limite, rondas[0]);
      var op := OpcionTras(opcion, rondas[0].entrada);
      if op != SALIR {
        SesionTermina(copia, limite, b, op, rondas[1..]);
      }
    }
  }
}

=== FILE: modelo.dfy ===
/** The task entity `modelo.Tarea`: a mutable object whose completion flag
    and completion time change in place. Its value, `EstadoTarea`, is what the
    specifications speak about. */
module Modelo {
  import opened Common
  import opened Fechas

  /** What `getFechaCompletadaFormateada` prints for a task that has no
      completion time. */
  const NO_COMPLETADA: string := "No completada"

  /** The fields of a `Tarea` object, as a value. */
  datatype EstadoTarea = EstadoTarea(
    id: int,
    descripcion: string,
    completada: bool,
    fechaCreacion: Instante,
    fechaCompletada: Option<Instante>)

  /** A completion time is present exactly while the task is completed. */
  predicate Coherente(e: EstadoTarea) {
    e.fechaCompletada.Some? <==> e.completada
  }

  /** The state `new Tarea(id, descripcion, completada)` starts in; both
      reads of the clock in the constructor are the instant `ahora`. */
  function Nueva(id: int, descripcion: string, completada: bool, ahora: Instante): (e: EstadoTarea)
    ensures e.id == id && e.descripcion == descripcion && e.completada == completada
    ensures e.fechaCreacion == ahora
    ensures Coherente(e)
    ensures e.fechaCompletada.Some? ==> e.fechaCompletada.value == ahora
  {
    EstadoTarea(id, descripcion, completada, ahora, if completada then Some(ahora) else None)
  }

  /** `setCompletada(completada)` at instant `ahora`, as a function on
      states. Whatever the state it starts from, the result is coherent. */
  function TrasSetCompletada(e: EstadoTarea, completada: bool, ahora: Instante): (r: EstadoTarea)
    ensures r.completada == completada
    ensures Coherente(r)
    ensures r.id == e.id && r.descripcion == e.descripcion && r.fechaCreacion == e.fechaCreacion
    ensures completada && e.fechaCompletada.Some? ==> r.fechaCompletada == e.fechaCompletada
    ensures completada && e.fechaCompletada.None? ==> r.fechaCompletada == Some(ahora)
    ensures !completada ==> r.fechaCompletada.None?
  {
    if completada && e.fechaCompletada.None? then
      e.(completada := true, fechaCompletada := Some(ahora))
    else if !completada then
      e.(completada := false, fechaCompletada := None)
    else
      e.(completada := true)
  }

  /** Completing a task twice keeps the first completion time: the second
      call changes nothing, whenever it happens. */
  lemma SetCompletadaIdempotente(e: EstadoTarea, ahora: Instante, despues: Instante)
    ensures var una := TrasSetCompletada(e, true, ahora);
            TrasSetCompletada(una, true, despues) == una
  {
  }

  /** On a coherent completed task, `setCompletada(true)` is the identity. */
  lemma SetCompletadaSobreCompletada(e: EstadoTarea, ahora: Instante)
    requires Coherente(e) && e.completada
    ensures TrasSetCompletada(e, true, ahora) == e
  {
  }

  /** `getFechaCompletadaFormateada()` of a state: the formatted completion
      time, or `"No completada"` when there is none. */
  function TextoFechaCompletada(e: EstadoTarea): (r: string)
    ensures r == NO_COMPLETADA <==> e.fechaCompletada.None?
    ensures e.fechaCompletada.Some? ==> r == Formatear(e.fechaCompletada.value)
    ensures '|' !in r && r != ""
  {
    match e.fechaCompletada
    case Some(f) => Formatear(f)
    case None => NO_COMPLETADA
  }

  /** The states of a sequence of task objects, in order. */
  function Estados(ts: seq<Tarea>): (r: seq<EstadoTarea>)
    reads ts
    ensures |r| == |ts|
    ensures forall i :: 0 <= i < |ts| ==> r[i] == ts[i].Estado()
  {
    seq(|ts|, i requires 0 <= i < |ts| reads ts => ts[i].Estado())
  }

  /** The states of a concatenation are the states of its parts. */
  lemma EstadosConcat(a: seq<Tarea>, b: seq<Tarea>)
    ensures Estados(a + b) == Estados(a) + Estados(b)
  {
    assert forall i :: 0 <= i < |b| ==> (a + b)[|a| + i] == b[i];
  }

  /** No object occurs twice in `ts`. */
  ghost predicate Distintas(ts: seq<Tarea>) {
    forall i, j :: 0 <= i < j < |ts| ==> ts[i] != ts[j]
  }

  /** Two lists of distinct objects with no object in common concatenate to
      a list of distinct objects. */
  lemma DistintasConcat(a: seq<Tarea>, b: seq<Tarea>)
    requires Distintas(a) && Distintas(b)
    requires forall t :: t in b ==> t !in a
    ensures Distintas(a + b)
  {
    var r := a + b;
    forall i, j | 0 <= i < j < |r|
      ensures r[i] != r[j]
    {
      if j >= |a| && i < |a| {
        assert r[j] == b[j - |a|] && r[j] in b;
        assert r[i] in a;
      } else if i >= |a| {
        assert r[i] == b[i - |a|] && r[j] == b[j - |a|];
      }
    }
  }

  /** Taking position `k` out of a list of distinct objects leaves a list of
      distinct objects. */
  lemma DistintasQuitar(ts: seq<Tarea>, k: nat)
    requires k < |ts| && Distintas(ts)
    ensures Distintas(ts[..k] + ts[k + 1..])
  {
    var r := ts[..k] + ts[k + 1..];
    assert forall i :: 0 <= i < |r| ==> r[i] == ts[if i < k then i else i + 1];
  }

  /** The states of a list without position `k` are its states without
      position `k`. */
  lemma EstadosQuitar(ts: seq<Tarea>, k: nat)
    requires k < |ts|
    ensures Estados(ts[..k] + ts[k + 1..]) == Estados(ts)[..k] + Estados(ts)[k + 1..]
  {
    var r := ts[..k] + ts[k + 1..];
    var e := Estados(ts);
    forall i | 0 <= i < |r|
      ensures Estados(r)[i] == (e[..k] + e[k + 1..])[i]
    {
      if i < k {
        assert r[i] == ts[i];
      } else {
        assert r[i] == ts[i + 1];
      }
    }
  }

  class Tarea {
    var id: int
    var descripcion: string
    var completada: bool
    var fechaCreacion: Instante
    var fechaCompletada: Option<Instante>

    /** The object's fields as a value (the getters of the source are the
        fields themselves). */
    function Estado(): EstadoTarea
      reads this
    {
      EstadoTarea(id, descripcion, completada, fechaCreacion, fechaCompletada)
    }

    ghost predicate Valid()
      reads this
    {
      Coherente(Estado())
    }

    constructor (id: int, descripcion: string, completada: bool, ahora: Instante)
      ensures Estado() == Nueva(id, descripcion, completada, ahora)
      ensures Valid()
    {
      this.id := id;
      this.descripcion := descripcion;
      this.completada := completada;
      this.fechaCreacion := ahora;
      this.fechaCompletada := if completada then Some(ahora) else None;
    }

    /** Sets the flag; records `ahora` as the completion time only when the
        task had none, and clears it when the flag is set to false. */
    method SetCompletada(completada: bool, ahora: Instante)
      modifies this
      ensures Estado() == TrasSetCompletada(old(Estado()), completada, ahora)
      ensures Valid()
    {
      this.completada := completada;
      if completada && this.fechaCompletada.None? {
        this.fechaCompletada := Some(ahora);
      } else if !completada {
        this.fechaCompletada := None;
      }
    }

    method SetDescripcion(descripcion: string)
      modifies this
      ensures Estado() == old(Estado()).(descripcion := descripcion)
    {
      this.descripcion := descripcion;
    }

    method SetId(id: int)
      modifies this
      ensures Estado() == old(Estado()).(id := id)
    {
      this.id := id;
    }

    method SetFechaCreacion(fecha: Instante)
      modifies this
      ensures Estado() == old(Estado()).(fechaCreacion := fecha)
    {
      this.fechaCreacion := fecha;
    }

    /** A raw setter: it does not keep the completion time in step with the
        flag, so it may leave the object incoherent. */
    method SetFechaCompletada(fecha: Option<Instante>)
      modifies this
      ensures Estado() == old(Estado()).(fechaCompletada := fecha)
      ensures Valid() <==> (fecha.Some? <==> completada)
    {
      this.fechaCompletada := fecha;
    }

    /** `getFechaCreacionFormateada()`: the creation time in the pattern
        `dd/MM/yyyy HH:mm`. */
    function FechaCreacionFormateada(): (r: string)
      reads this
      ensures r == Formatear(fechaCreacion)
      ensures |r| == 16 && '|' !in r
    {
      Formatear(fechaCreacion)
    }

    /** `getFechaCompletadaFormateada()`: `"No completada"` exactly when
        there is no completion time. */
    function FechaCompletadaFormateada(): (r: string)
      reads this
      ensures r == NO_COMPLETADA <==> fechaCompletada.None?
      ensures fechaCompletada.Some? ==> r == Formatear(fechaCompletada.value)
      ensures '|' !in r && r != ""
    {
      TextoFechaCompletada(Estado())
    }
  }
}

=== FILE: operaciones.dfy ===
/** `operaciones.OperacionesTareas`: the predicates, consumers and functions
    the application passes to streams. A `Predicate<Tarea>` or
    `Function<Tarea, ...>` only reads its task, so here it takes the task's
    current state `t.Estado()`; the two consumers that change the task are
    methods on the object. The copy under `src/` is a superset of the one
    under `src/main/java/`. */
module Operaciones {
  import opened Common
  import opened Fechas
  import opened Texto
  import opened Modelo

  /** `TAREA_COMPLETADA`. */
  predicate TareaCompletada(e: EstadoTarea) {
    e.completada
  }

  /** `TAREA_PENDIENTE`: exactly the tasks `TAREA_COMPLETADA` rejects. */
  function TareaPendiente(e: EstadoTarea): (r: bool)
    ensures r != TareaCompletada(e)
  {
    !e.completada
  }

  /** `filtrarPorId(id)`: holds of the tasks whose id is `id`. */
  function FiltrarPorId(id: int, e: EstadoTarea): (r: bool)
    ensures r <==> e.id == id
  {
    e.id == id
  }

  /** `filtrarPorDescripcion(texto)`: a case-insensitive substring test on
      the description (letters are folded in ASCII only). An empty text
      matches every task, and so does any exact substring. */
  function FiltrarPorDescripcion(texto: string, e: EstadoTarea): (r: bool)
    ensures texto == "" ==> r
    ensures Contiene(e.descripcion, texto) ==> r
  {
    ContieneMinusculas(e.descripcion, texto);
    Contiene(AMinusculas(e.descripcion), AMinusculas(texto))
  }

  lemma ContieneMinusculas(s: string, sub: string)
    ensures sub == "" ==> Contiene(AMinusculas(s), AMinusculas(sub))
    ensures Contiene(s, sub) ==> Contiene(AMinusculas(s), AMinusculas(sub))
  {
    if sub == "" {
      assert AMinusculas(s)[0..0] == AMinusculas(sub);
      assert ApareceEn(AMinusculas(s), AMinusculas(sub), 0);
    }
    if Contiene(s, sub) {
      var i :| 0 <= i <= |s| - |sub| && ApareceEn(s, sub, i);
      MinusculasTramo(s, i, i + |sub|);
      assert ApareceEn(AMinusculas(s), AMinusculas(sub), i);
    }
  }

  /** Folding the case of a string and then taking a slice is taking the
      slice and then folding its case. */
  lemma MinusculasTramo(s: string, i: nat, j: nat)
    requires i <= j <= |s|
    ensures AMinusculas(s)[i..j] == AMinusculas(s[i..j])
  {
    var m := AMinusculas(s);
    var tramo := s[i..j];
    var mt := AMinusculas(tramo);
    forall k | 0 <= k < j - i
      ensures m[i..j][k] == mt[k]
    {
      assert m[i..j][k] == m[i + k] == AMinuscula(s[i + k]);
      assert tramo[k] == s[i + k];
    }
  }

  /** Two search texts that differ only in the case of their letters select
      the same tasks. */
  lemma FiltrarPorDescripcionIgnoraMayusculas(texto: string, otro: string, e: EstadoTarea)
    requires AMinusculas(texto) == AMinusculas(otro)
    ensures FiltrarPorDescripcion(texto, e) == FiltrarPorDescripcion(otro, e)
  {
  }

  /** `MARCAR_COMPLETADA` (the message it prints is not modelled). */
  method MarcarCompletada(t: Tarea, ahora: Instante)
    modifies t
    ensures t.Estado() == TrasSetCompletada(old(t.Estado()), true, ahora)
    ensures t.completada && t.fechaCompletada.Some?
    ensures t.Valid()
  {
    t.SetCompletada(true, ahora);
  }

  /** `MARCAR_PENDIENTE` (the message it prints is not modelled). */
  method MarcarPendiente(t: Tarea, ahora: Instante)
    modifies t
    ensures t.Estado() == TrasSetCompletada(old(t.Estado()), false, ahora)
    ensures !t.completada && t.fechaCompletada.None?
    ensures t.Valid()
  {
    t.SetCompletada(false, ahora);
  }

  const COMPLETADA: string := "COMPLETADA"
  const PENDIENTE: string := "PENDIENTE"

  /** `A_FORMATO_TEXTO`: `"%d|%s|%s"` of the id, the description and
      `COMPLETADA` or `PENDIENTE`. Cut at every `|`, the text is the id,
      the pieces of the description and the state word, which fixes the
      text (`UnirTrozos`). When the description holds no `|`, splitting
      the text gives those three fields back. */
  function AFormatoTexto(e: EstadoTarea): (r: string)
    ensures Trozos(r) == [IntADecimal(e.id)] + Trozos(e.descripcion) + [if e.completada then COMPLETADA else PENDIENTE]
    ensures '|' !in e.descripcion ==>
              Split(r) == [IntADecimal(e.id), e.descripcion, if e.completada then COMPLETADA else PENDIENTE]
    ensures TerminaEn(r, COMPLETADA) <==> e.completada
  {
    AFormatoTextoCampos(e);
    Unir([IntADecimal(e.id), e.descripcion, if e.completada then COMPLETADA else PENDIENTE])
  }

  lemma AFormatoTextoCampos(e: EstadoTarea)
    ensures var estado := if e.completada then COMPLETADA else PENDIENTE;
            var r := Unir([IntADecimal(e.id), e.descripcion, estado]);
            Trozos(r) == [IntADecimal(e.id)] + Trozos(e.descripcion) + [estado] &&
            ('|' !in e.descripcion ==> Split(r) == [IntADecimal(e.id), e.descripcion, estado]) &&
            (TerminaEn(r, COMPLETADA) <==> e.completada)
  {
    var estado := if e.completada then COMPLETADA else PENDIENTE;
    var d := IntADecimal(e.id);
    var r := Unir([d, e.descripcion, estado]);
    assert Trozos(r) == [d] + Trozos(e.descripcion) + [estado] by {
      TrozosTres(d, e.descripcion, estado);
    }
    if '|' !in e.descripcion {
      assert Split(r) == [d, e.descripcion, estado] by {
        SplitDeUnir([d, e.descripcion, estado]);
      }
    }
    assert TerminaEn(r, COMPLETADA) <==> e.completada by {
      UnirTres(d, e.descripcion, estado);
      TerminaEnEstado(d + "|" + e.descripcion, e.completada);
    }
  }

  /** A line whose last field is the state word ends in `COMPLETADA`
      exactly when the task is completed. */
  lemma TerminaEnEstado(cabeza: string, completada: bool)
    ensures var r := cabeza + ("|" + if completada then COMPLETADA else PENDIENTE);
            TerminaEn(r, COMPLETADA) <==> completada
  {
    if completada {
      TerminaEnConcat(cabeza, "|", COMPLETADA);
    } else {
      var r := cabeza + ("|" + PENDIENTE);
      assert r[|r| - 10..] == "|" + PENDIENTE;
      assert r[|r| - 10..][0] != COMPLETADA[0];
    }
  }

  /** Three fields joined with `|`. */
  lemma UnirTres(a: string, b: string, c: string)
    ensures Unir([a, b, c]) == (a + "|" + b) + ("|" + c)
  {
    assert [a, b, c][1..] == [b, c];
    assert [b, c][1..] == [c];
    var u := Unir([b, c]);
    assert Unir([c]) == c;
    assert u == (b + "|") + c == b + ("|" + c);
    assert Unir([a, b, c]) == (a + "|") + u;
    assert (a + "|") + (b + ("|" + c)) == ((a + "|") + b) + ("|" + c);
  }

  /** The pieces of three joined fields of which only the middle one may
      hold a `|`. */
  lemma TrozosTres(a: string, b: string, c: string)
    requires '|' !in a && '|' !in c
    ensures Trozos(Unir([a, b, c])) == [a] + Trozos(b) + [c]
  {
    UnirTres(a, b, c);
    var cabeza := a + "|" + b;
    assert cabeza + ("|" + c) == cabeza + "|" + c;
    TrozosConcat(cabeza, c);
    TrozosConcat(a, b);
    TrozosSinBarra(a);
    TrozosSinBarra(c);
  }

  /** Any string ends in what was appended to it last. */
  lemma TerminaEnConcat(p: string, x: string, q: string)
    ensures TerminaEn(p + (x + q), q)
  {
    assert (p + (x + q))[|p| + |x|..] == q;
  }

  predicate TerminaEn(s: string, sufijo: string) {
    |sufijo| <= |s| && s[|s| - |sufijo|..] == sufijo
  }

  /** `OBTENER_ESTADO`: `"Completada"` for completed tasks, `"Pendiente"`
      for the others. */
  function ObtenerEstado(e: EstadoTarea): (r: string)
    ensures r == "Completada" <==> e.completada
    ensures r == "Pendiente" <==> !e.completada
  {
    if e.completada then "Completada" else "Pendiente"
  }
}

=== FILE: persistencia.dfy ===
/** `persistencia.GestorPersistencia`: the text file `tareas.txt`, one task
    per line, fields separated by `|`. The file itself is not modelled: a
    save yields the lines that `println` would write, and a load receives
    the file's lines (`None` when the file does not exist). */
module Persistencia {
  import opened Common
  import opened Texto
  import opened Fechas
  import opened Modelo
  import Operaciones

  /** The five fields `guardarTareas` writes for one task: the id, the
      description, the flag as `true`/`false`, the creation time and the
      completion time or `"No completada"`. */
  function CamposLinea(e: EstadoTarea): (r: seq<string>)
    ensures |r| == 5 && r[4] != ""
    ensures forall i :: 0 <= i < 5 && i != 1 ==> '|' !in r[i]
    ensures r[0] == IntADecimal(e.id) && r[1] == e.descripcion
    ensures r[2] == (if e.completada then "true" else "false")
    ensures r[3] == Formatear(e.fechaCreacion) && r[4] == TextoFechaCompletada(e)
  {
    [IntADecimal(e.id), e.descripcion, if e.completada then "true" else "false",
     Formatear(e.fechaCreacion), TextoFechaCompletada(e)]
  }

  /** The line written for one task. Cut at every `|`, it is the id, the
      pieces of the description, and the last three fields; as a line is
      its pieces joined again (`UnirTrozos`), this fixes the line. When the
      description holds no `|`, both cutting and `split` give the five
      fields back. */
  function FormatoLinea(e: EstadoTarea): (r: string)
    ensures Trozos(r) == [IntADecimal(e.id)] + Trozos(e.descripcion) + CamposLinea(e)[2..]
    ensures '|' !in e.descripcion ==> Trozos(r) == CamposLinea(e) && Split(r) == CamposLinea(e)
    ensures !EnBlanco(r)
  {
    CamposLineaUnidos(e);
    Unir(CamposLinea(e))
  }

  lemma CamposLineaUnidos(e: EstadoTarea)
    ensures Trozos(Unir(CamposLinea(e))) == [IntADecimal(e.id)] + Trozos(e.descripcion) + CamposLinea(e)[2..]
    ensures '|' !in e.descripcion ==> Split(Unir(CamposLinea(e))) == CamposLinea(e)
    ensures !EnBlanco(Unir(CamposLinea(e)))
  {
    var campos := CamposLinea(e);
    TrozosCampos(campos);
    if '|' !in e.descripcion {
      SplitDeUnir(campos);
    }
    assert Unir(campos) == campos[0] + "|" + Unir(campos[1..]);
    assert Unir(campos)[0] == IntADecimal(e.id)[0];
  }

  /** The pieces of five joined fields of which only the second may hold a
      `|`. */
  lemma TrozosCampos(c: seq<string>)
    requires |c| == 5
    requires forall i :: 0 <= i < 5 && i != 1 ==> '|' !in c[i]
    ensures Trozos(Unir(c)) == [c[0]] + Trozos(c[1]) + c[2..]
  {
    var a, b, cola := c[0], c[1], c[2..];
    var resto := b + "|" + Unir(cola);
    assert Unir(c) == a + "|" + resto by { assert c[1..][1..] == cola; }
    assert Trozos(resto) == Trozos(b) + cola by {
      TrozosDeUnir(cola);
      TrozosConcat(b, Unir(cola));
    }
    TrozosConcat(a, resto);
    TrozosSinBarra(a);
  }



  /** One line per task, in list order. */
  function Lineas(es: seq<EstadoTarea>): (r: seq<string>)
    ensures |r| == |es|
    ensures forall i :: 0 <= i < |es| ==> r[i] == FormatoLinea(es[i])
  {
    seq(|es|, i requires 0 <= i < |es| => FormatoLinea(es[i]))
  }

  /** Writing one more task appends its line. */
  lemma LineasPaso(es: seq<EstadoTarea>, i: nat)
    requires i < |es|
    ensures Lineas(es[..i + 1]) == Lineas(es[..i]) + [FormatoLinea(es[i])]
  {
    assert es[..i + 1] == es[..i] + [es[i]];
  }

  /** The part of a task the file format brings back. */
  datatype Registro = Registro(id: int, descripcion: string, completada: bool)

  function RegistroDe(e: EstadoTarea): Registro {
    Registro(e.id, e.descripcion, e.completada)
  }

  function Registros(es: seq<EstadoTarea>): (r: seq<Registro>)
    ensures |r| == |es|
    ensures forall i :: 0 <= i < |es| ==> r[i] == RegistroDe(es[i])
  {
    if es == [] then [] else [RegistroDe(es[0])] + Registros(es[1..])
  }

  /** What the loop of `cargarTareas` makes of one line. */
  datatype Lectura = Omitida | IdInvalido | Leida(registro: Registro)

  /** One line: skipped when blank after trimming or when it splits into
      fewer than three fields; otherwise the first field must be an `int`
      (else `NumberFormatException`), the second is the description and the
      third is read by `Boolean.parseBoolean`. Further fields are ignored. */
  function LeerLinea(linea: string): (r: Lectura)
    ensures EnBlanco(linea) ==> r.Omitida?
    ensures r.Leida? ==> IsInt32(r.registro.id)
  {
    if Trim(linea) == "" then Omitida
    else
      var partes := Split(linea);
      if |partes| < 3 then Omitida
      else
        match ParseInt(partes[0])
        case None => IdInvalido
        case Some(id) => Leida(Registro(id, partes[1], ParseBoolean(partes[2])))
  }

  /** The three outcomes of reading one line, in terms of the split fields. */
  lemma LeerLineaCasos(linea: string)
    ensures LeerLinea(linea).Omitida? <==> EnBlanco(linea) || |Split(linea)| < 3
    ensures LeerLinea(linea).IdInvalido? <==>
              !EnBlanco(linea) && |Split(linea)| >= 3 && ParseInt(Split(linea)[0]).None?
    ensures LeerLinea(linea).Leida? ==>
              var partes := Split(linea);
              LeerLinea(linea).registro == Registro(ParseInt(partes[0]).value, partes[1], ParseBoolean(partes[2]))
  {
  }

  /** What the loop makes of each line, line by line: position `i` is what
      line `i` reads as. */
  function Lecturas(lineas: seq<string>): (r: seq<Lectura>)
    ensures |r| == |lineas|
    ensures forall i :: 0 <= i < |lineas| ==> r[i] == LeerLinea(lineas[i])
  {
    seq(|lineas|, i requires 0 <= i < |lineas| => LeerLinea(lineas[i]))
  }

  /** Reading one more line appends its outcome. */
  lemma LecturasPaso(lineas: seq<string>, i: nat)
    requires i < |lineas|
    ensures Lecturas(lineas[..i + 1]) == Lecturas(lineas[..i]) + [LeerLinea(lineas[i])]
  {
    assert lineas[..i + 1][..i] == lineas[..i];
  }

  /** The outcomes of the lines gathered in order: the records of the lines
      that are not skipped, or a failure, with no partial result, as soon as
      one line has a bad id. */
  function Reunir(ls: seq<Lectura>): (r: Result<seq<Registro>>)
    ensures r.Failure? ==> r.error == Persistencia
    ensures r.Success? ==> |r.value| <= |ls|
  {
    if ls == [] then Success([])
    else
      match Reunir(ls[..|ls| - 1])
      case Failure(e) => Failure(e)
      case Success(rs) =>
        match ls[|ls| - 1]
        case IdInvalido => Failure(Persistencia)
        case Omitida => Success(rs)
        case Leida(reg) => Success(rs + [reg])
  }

  /** Gathering one more outcome: a bad id fails the load, a skipped line
      changes nothing, and a line read appends its record. */
  lemma ReunirAnade(ls: seq<Lectura>, lectura: Lectura)
    ensures lectura.IdInvalido? ==> Reunir(ls + [lectura]).Failure?
    ensures lectura.Omitida? ==> Reunir(ls + [lectura]) == Reunir(ls)
    ensures lectura.Leida? && Reunir(ls).Success? ==>
              Reunir(ls + [lectura]) == Success(Reunir(ls).value + [lectura.registro])
  {
    assert (ls + [lectura])[..|ls|] == ls;
  }

  /** The load fails exactly when some line has a bad id, wherever that line
      is. */
  lemma {:induction false} ReunirFalla(ls: seq<Lectura>)
    ensures Reunir(ls).Failure? <==> IdInvalido in ls
  {
    if ls != [] {
      var n := |ls| - 1;
      ReunirFalla(ls[..n]);
      assert ls == ls[..n] + [ls[n]];
    }
  }

  /** On success, the records are exactly those of the lines read, in
      order. */
  lemma {:induction false} ReunirExito(ls: seq<Lectura>)
    requires Reunir(ls).Success?
    ensures Reunir(ls).value == Leidas(ls)
  {
    if ls != [] {
      var n := |ls| - 1;
      ReunirExito(ls[..n]);
      assert ls == ls[..n] + [ls[n]];
      LeidasConcat(ls[..n], [ls[n]]);
    }
  }

  /** The records of the lines that were read, in order. */
  function Leidas(ls: seq<Lectura>): (r: seq<Registro>)
    ensures |r| <= |ls|
    ensures forall reg :: reg in r <==> Leida(reg) in ls
  {
    if ls == [] then []
    else (if ls[0].Leida? then [ls[0].registro] else []) + Leidas(ls[1..])
  }

  /** When every line is read, there is one record per line, in order. */
  lemma {:induction false} LeidasTodas(ls: seq<Lectura>)
    requires forall i :: 0 <= i < |ls| ==> ls[i].Leida?
    ensures |Leidas(ls)| == |ls|
    ensures forall i :: 0 <= i < |ls| ==> Leidas(ls)[i] == ls[i].registro
  {
    if ls != [] {
      LeidasTodas(ls[1..]);
    }
  }

  lemma {:induction false} LeidasConcat(a: seq<Lectura>, b: seq<Lectura>)
    ensures Leidas(a + b) == Leidas(a) + Leidas(b)
  {
    if a != [] {
      var cabeza := if a[0].Leida? then [a[0].registro] else [];
      assert (a + b)[0] == a[0];
      assert (a + b)[1..] == a[1..] + b;
      LeidasConcat(a[1..], b);
      assert Leidas(a + b) == cabeza + (Leidas(a[1..]) + Leidas(b));
      assert Leidas(a) == cabeza + Leidas(a[1..]);
    } else {
      assert a + b == b;
    }
  }

  /** `cargarTareas` on the lines of an existing file. */
  function Cargar(lineas: seq<string>): (r: Result<seq<Registro>>)
    ensures r.Failure? ==> r.error == Persistencia
    ensures r.Success? ==> |r.value| <= |lineas|
  {
    Reunir(Lecturas(lineas))
  }

  /** Line `i` is not skipped and has a bad id. */
  predicate IdInvalidoEn(lineas: seq<string>, i: int)
    requires 0 <= i < |lineas|
  {
    LeerLinea(lineas[i]).IdInvalido?
  }

  /** Loading one more line: a bad id fails the load, a skipped line
      changes nothing, and a line read appends its record. */
  lemma CargarPaso(lineas: seq<string>, i: nat)
    requires i < |lineas|
    ensures LeerLinea(lineas[i]).IdInvalido? ==> Cargar(lineas).Failure?
    ensures LeerLinea(lineas[i]).Omitida? ==> Cargar(lineas[..i + 1]) == Cargar(lineas[..i])
    ensures LeerLinea(lineas[i]).Leida? && Cargar(lineas[..i]).Success? ==>
              Cargar(lineas[..i + 1]) == Success(Cargar(lineas[..i]).value + [LeerLinea(lineas[i]).registro])
  {
    LecturasPaso(lineas, i);
    ReunirAnade(Lecturas(lineas[..i]), LeerLinea(lineas[i]));
    if LeerLinea(lineas[i]).IdInvalido? {
      ReunirFalla(Lecturas(lineas));
    }
  }

  /** The load of a file's lines fails exactly when some line that is not
      skipped has a bad id. */
  lemma CargarFalla(lineas: seq<string>)
    ensures Cargar(lineas).Failure? <==> exists i :: 0 <= i < |lineas| && IdInvalidoEn(lineas, i)
  {
    var ls := Lecturas(lineas);
    ReunirFalla(ls);
    forall i | 0 <= i < |lineas| && IdInvalidoEn(lineas, i)
      ensures IdInvalido in ls
    {
      assert ls[i] == LeerLinea(lineas[i]);
    }
    if IdInvalido in ls {
      var i :| 0 <= i < |ls| && ls[i] == IdInvalido;
      assert IdInvalidoEn(lineas, i);
    }
  }

  /** `cargarTareas` on a file that may not exist: a missing file is an
      empty list, not an error. */
  function CargarArchivo(archivo: Option<seq<string>>): (r: Result<seq<Registro>>)
    ensures archivo.None? ==> r == Success([])
    ensures archivo.Some? ==> r == Cargar(archivo.value)
  {
    match archivo
    case None => Success([])
    case Some(lineas) => Cargar(lineas)
  }

  /** A saved line is read back as the task's id, description and flag. */
  lemma LeerLineaDeFormato(e: EstadoTarea)
    requires '|' !in e.descripcion && IsInt32(e.id)
    ensures LeerLinea(FormatoLinea(e)) == Leida(RegistroDe(e))
  {
    ParseIntDeIntADecimal(e.id);
  }

  /** Round trip: loading the lines saved for a list of tasks gives back
      their ids, descriptions and flags, in order, provided no description
      holds a `|` or a line break (`readLine` would split the line there)
      and every id is a Java `int`. */
  lemma IdaYVuelta(es: seq<EstadoTarea>)
    requires forall i :: 0 <= i < |es| ==> '|' !in es[i].descripcion && IsInt32(es[i].id)
    requires forall i :: 0 <= i < |es| ==> '\n' !in es[i].descripcion && '\r' !in es[i].descripcion
    ensures Cargar(Lineas(es)) == Success(Registros(es))
  {
    var ls := Lecturas(Lineas(es));
    forall i | 0 <= i < |es|
      ensures ls[i] == Leida(RegistroDe(es[i]))
    {
      LeerLineaDeFormato(es[i]);
    }
    ReunirFalla(ls);
    ReunirExito(ls);
    LeidasTodas(ls);
  }

  /** A line in the format of `A_FORMATO_TEXTO` is accepted by the loader,
      but its third field is `COMPLETADA` or `PENDIENTE`, never `true`: the
      task always comes back pending. */
  lemma LeerLineaAFormatoTexto(e: EstadoTarea)
    requires '|' !in e.descripcion && IsInt32(e.id)
    ensures LeerLinea(Operaciones.AFormatoTexto(e)) == Leida(Registro(e.id, e.descripcion, false))
  {
    var linea := Operaciones.AFormatoTexto(e);
    var estado := if e.completada then Operaciones.COMPLETADA else Operaciones.PENDIENTE;
    var d := IntADecimal(e.id);
    assert Split(linea) == [d, e.descripcion, estado];
    assert !EnBlanco(linea) by {
      Operaciones.UnirTres(d, e.descripcion, estado);
      assert linea[|d|] == '|';
    }
    assert ParseInt(d) == Some(e.id) by { ParseIntDeIntADecimal(e.id); }
    assert !ParseBoolean(estado);
    LeerLineaDeCampos(linea, [d, e.descripcion, estado], e.id);
  }

  /** A line that is not blank and splits into at least three fields, the
      first of which parses, is read as those fields. */
  lemma LeerLineaDeCampos(linea: string, partes: seq<string>, id: int)
    requires !EnBlanco(linea) && Split(linea) == partes && |partes| >= 3
    requires ParseInt(partes[0]) == Some(id)
    ensures LeerLinea(linea) == Leida(Registro(id, partes[1], ParseBoolean(partes[2])))
  {
  }

  /** The state of a task the loader creates from a record at instant
      `ahora`. */
  function Nuevas(rs: seq<Registro>, ahora: Instante): (r: seq<EstadoTarea>)
    ensures |r| == |rs|
    ensures forall i :: 0 <= i < |rs| ==> r[i] == Nueva(rs[i].id, rs[i].descripcion, rs[i].completada, ahora)
    ensures Registros(r) == rs
  {
    if rs == [] then []
    else
      var r := [Nueva(rs[0].id, rs[0].descripcion, rs[0].completada, ahora)] + Nuevas(rs[1..], ahora);
      assert Registros(r) == rs;
      r
  }

  /** `guardarTareas`: one line per task, in list order. `escribible` says
      whether the `FileWriter` could open the file; when it cannot, the
      save fails with `PersistenciaException`. */
  method GuardarTareas(tareas: seq<Tarea>, escribible: bool) returns (r: Result<seq<string>>)
    ensures r.Failure? <==> !escribible
    ensures r.Failure? ==> r.error == Persistencia
    ensures r.Success? ==> r.value == Lineas(Estados(tareas))
  {
    if !escribible {
      return Failure(Persistencia);
    }
    ghost var es := Estados(tareas);
    var lineas: seq<string> := [];
    for i := 0 to |tareas|
      invariant lineas == Lineas(es[..i])
    {
      var e := tareas[i].Estado();
      LineasPaso(es, i);
      lineas := lineas + [FormatoLinea(e)];
    }
    assert es[..|tareas|] == es;
    return Success(lineas);
  }

  /** The reading half of the loop of `cargarTareas`: each line is read in
      order, the records of the lines read are collected, and the first
      line with a bad id ends the load with `PersistenciaException`. */
  method LeerRegistros(lineas: seq<string>) returns (r: Result<seq<Registro>>)
    ensures r == Cargar(lineas)
  {
    var rs: seq<Registro> := [];
    var i := 0;
    while i < |lineas|
      invariant 0 <= i <= |lineas|
      invariant Cargar(lineas[..i]) == Success(rs)
    {
      var lectura := LeerLinea(lineas[i]);
      CargarPaso(lineas, i);
      match lectura {
        case IdInvalido =>
          return Failure(Persistencia);
        case Omitida =>
        case Leida(reg) =>
          rs := rs + [reg];
      }
      i := i + 1;
    }
    assert lineas[..i] == lineas;
    return Success(rs);
  }

  /** The construction half of the loop of `cargarTareas`: one new `Tarea`
      per record, in order, each created at `ahora`. */
  method CrearTareas(rs: seq<Registro>, ahora: Instante) returns (tareas: seq<Tarea>)
    ensures Estados(tareas) == Nuevas(rs, ahora)
    ensures Distintas(tareas) && forall t :: t in tareas ==> fresh(t)
  {
    tareas := [];
    for i := 0 to |rs|
      invariant |tareas| == i
      invariant forall k :: 0 <= k < i ==>
                  tareas[k].Estado() == Nueva(rs[k].id, rs[k].descripcion, rs[k].completada, ahora)
      invariant Distintas(tareas)
      invariant forall k :: 0 <= k < i ==> fresh(tareas[k])
    {
      var t := new Tarea(rs[i].id, rs[i].descripcion, rs[i].completada, ahora);
      tareas := tareas + [t];
    }
  }

  /** `cargarTareas`: a missing file gives an empty list; otherwise every
      line that is not skipped becomes a new `Tarea`, created at `ahora`,
      and a bad id fails the whole load. */
  method CargarTareas(archivo: Option<seq<string>>, ahora: Instante) returns (r: Result<seq<Tarea>>)
    ensures r.Failure? <==> CargarArchivo(archivo).Failure?
    ensures r.Failure? ==> r.error == Persistencia
    ensures r.Success? ==> Estados(r.value) == Nuevas(CargarArchivo(archivo).value, ahora)
    ensures r.Success? ==> Distintas(r.value) && forall t :: t in r.value ==> fresh(t)
  {
    if archivo.None? {
      return Success([]);
    }
    var leidos := LeerRegistros(archivo.value);
    if leidos.Failure? {
      return Failure(leidos.error);
    }
    var tareas := CrearTareas(leidos.value, ahora);
    return Success(tareas);
  }
}

=== FILE: texto.dfy ===
/** The few `java.lang.String`, `Integer` and `Boolean` operations the task
    manager relies on, with Java's own edge cases: `trim`, `split("\\|")`,
    `Integer.parseInt`, `Integer.toString`, `Boolean.parseBoolean`,
    `toLowerCase` and `contains`. */
module Texto {
  import opened Common

  // ---------------------------------------------------------------------
  // trim()

  /** `String.trim()` removes every character whose code is at most U+0020. */
  predicate EsEspacio(c: char) {
    c <= ' '
  }

  predicate EnBlanco(s: string) {
    forall i :: 0 <= i < |s| ==> EsEspacio(s[i])
  }

  /** `String.trim()`: blank characters are dropped from the front, then
      from the back. The result is empty exactly when the whole string is
      blank, and otherwise starts and ends with a character that is not. */
  function Trim(s: string): (r: string)
    ensures |r| <= |s|
    ensures r == [] <==> EnBlanco(s)
    ensures r != [] ==> !EsEspacio(r[0]) && !EsEspacio(r[|r| - 1])
    decreases |s|
  {
    if s == [] then []
    else if EsEspacio(s[0]) then
      assert EnBlanco(s) <==> EnBlanco(s[1..]) by {
        assert forall i :: 1 <= i < |s| ==> s[i] == s[1..][i - 1];
      }
      Trim(s[1..])
    else if EsEspacio(s[|s| - 1]) then Trim(s[..|s| - 1])
    else s
  }

  /** `r` is the slice of `s` starting at `i`, with only blanks before and
      after it. */
  predicate Recorte(s: string, i: nat, r: string) {
    i + |r| <= |s| && r == s[i..i + |r|] && EnBlanco(s[..i]) && EnBlanco(s[i + |r|..])
  }

  /** What `trim()` keeps is a slice of the string with only blanks before
      and after it. */
  lemma {:induction false} TrimRecorta(s: string) returns (i: nat)
    ensures Recorte(s, i, Trim(s))
    decreases |s|
  {
    if s == [] {
      i := 0;
    } else if EsEspacio(s[0]) {
      var j := TrimRecorta(s[1..]);
      RecorteTrasBlanco(s, j, Trim(s[1..]));
      i := j + 1;
    } else if EsEspacio(s[|s| - 1]) {
      i := TrimRecorta(s[..|s| - 1]);
      RecorteAntesDeBlanco(s, i, Trim(s[..|s| - 1]));
    } else {
      i := 0;
      assert s[..0] == [] && s[|s|..] == [];
    }
  }

  lemma RecorteTrasBlanco(s: string, j: nat, r: string)
    requires s != [] && EsEspacio(s[0]) && Recorte(s[1..], j, r)
    ensures Recorte(s, j + 1, r)
  {
    assert s[1..][j..j + |r|] == s[j + 1..j + 1 + |r|];
    assert s[..j + 1] == [s[0]] + s[1..][..j];
    EnBlancoConcat([s[0]], s[1..][..j]);
    assert s[j + 1 + |r|..] == s[1..][j + |r|..];
  }

  lemma RecorteAntesDeBlanco(s: string, i: nat, r: string)
    requires s != [] && EsEspacio(s[|s| - 1]) && Recorte(s[..|s| - 1], i, r)
    ensures Recorte(s, i, r)
  {
    var t := s[..|s| - 1];
    assert t[i..i + |r|] == s[i..i + |r|];
    assert s[..i] == t[..i];
    assert s[i + |r|..] == t[i + |r|..] + [s[|s| - 1]];
    EnBlancoConcat(t[i + |r|..], [s[|s| - 1]]);
  }

  /** A concatenation is blank exactly when both parts are. */
  lemma EnBlancoConcat(a: string, b: string)
    ensures EnBlanco(a + b) <==> EnBlanco(a) && EnBlanco(b)
  {
    assert forall i :: 0 <= i < |a| ==> (a + b)[i] == a[i];
    assert forall i :: 0 <= i < |b| ==> (a + b)[|a| + i] == b[i];
  }

  /** Surrounding a string whose ends are not blank with blanks does not
      change what `trim()` returns. */
  lemma {:induction false} TrimRodeado(p: string, s: string, q: string)
    requires EnBlanco(p) && EnBlanco(q)
    requires s != [] && !EsEspacio(s[0]) && !EsEspacio(s[|s| - 1])
    ensures Trim(p + s + q) == s
    decreases |p|
  {
    if p != [] {
      assert (p + s + q)[0] == p[0];
      assert (p + s + q)[1..] == p[1..] + s + q;
      TrimRodeado(p[1..], s, q);
    } else {
      assert p + s + q == s + q;
      TrimSufijo(s, q);
    }
  }

  lemma {:induction false} TrimSufijo(s: string, q: string)
    requires EnBlanco(q)
    requires s != [] && !EsEspacio(s[0]) && !EsEspacio(s[|s| - 1])
    ensures Trim(s + q) == s
    decreases |q|
  {
    if q != [] {
      assert (s + q)[0] == s[0];
      assert (s + q)[..|s + q| - 1] == s + q[..|q| - 1];
      TrimSufijo(s, q[..|q| - 1]);
    } else {
      assert s + q == s;
    }
  }

  // ---------------------------------------------------------------------
  // Decimal digits, Integer.toString and Integer.parseInt

  predicate EsDigito(c: char) {
    '0' <= c <= '9'
  }

  predicate SoloDigitos(s: string) {
    forall i :: 0 <= i < |s| ==> EsDigito(s[i])
  }

  function Digito(d: nat): (c: char)
    requires d < 10
    ensures EsDigito(c)
  {
    ('0' as int + d) as char
  }

  /** The value of a string of decimal digits, most significant first. */
  function ValorDecimal(s: string): nat
    requires SoloDigitos(s)
  {
    if s == [] then 0
    else ValorDecimal(s[..|s| - 1]) * 10 + (s[|s| - 1] as int - '0' as int)
  }

  /** `10` to the power `k`. */
  function Potencia10(k: nat): nat {
    if k == 0 then 1 else 10 * Potencia10(k - 1)
  }

  /** The value of a string of decimal digits by place value: the first
      digit counts `10^(n-1)` times, the next `10^(n-2)` times, and so on. */
  function ValorPosicional(s: string): nat
    requires SoloDigitos(s)
  {
    if s == [] then 0
    else (s[0] as int - '0' as int) * Potencia10(|s| - 1) + ValorPosicional(s[1..])
  }

  /** Appending a digit multiplies the place value of the others by ten. */
  lemma {:induction false} ValorPosicionalAnade(s: string, c: char)
    requires SoloDigitos(s) && EsDigito(c)
    ensures SoloDigitos(s + [c])
    ensures ValorPosicional(s + [c]) == ValorPosicional(s) * 10 + (c as int - '0' as int)
  {
    assert SoloDigitos(s + [c]) by {
      assert forall i :: 0 <= i < |s + [c]| ==> (s + [c])[i] == if i < |s| then s[i] else c;
    }
    if s != [] {
      var t := s + [c];
      assert t[0] == s[0] && t[1..] == s[1..] + [c];
      ValorPosicionalAnade(s[1..], c);
      CifraDesplazada(s[0] as int - '0' as int, Potencia10(|s| - 1), ValorPosicional(s[1..]), c as int - '0' as int);
    }
  }

  /** The arithmetic step of `ValorPosicionalAnade`: a leading digit `d`
      of weight `p`, followed by digits worth `v`, shifted one place left
      to make room for a last digit `e`. */
  lemma CifraDesplazada(d: int, p: int, v: int, e: int)
    ensures d * (10 * p) + (v * 10 + e) == (d * p + v) * 10 + e
  {
  }

  /** Reading the digits from the last one and by place value agree. */
  lemma {:induction false} ValorDecimalPosicional(s: string)
    requires SoloDigitos(s)
    ensures ValorDecimal(s) == ValorPosicional(s)
    decreases |s|
  {
    if s != [] {
      var t := s[..|s| - 1];
      ValorDecimalPosicional(t);
      ValorPosicionalAnade(t, s[|s| - 1]);
      assert t + [s[|s| - 1]] == s;
    }
  }

  /** The shortest decimal numeral of `n`, read back to `n`: no leading
      zero unless `n` is zero itself. */
  function NatADecimal(n: nat): (r: string)
    ensures r != [] && SoloDigitos(r)
    ensures ValorDecimal(r) == n
    ensures r[0] == '0' <==> n == 0
    ensures n == 0 ==> r == "0"
    ensures |r| > 1 ==> r[0] != '0'
  {
    if n < 10 then
      [Digito(n)]
    else
      var r := NatADecimal(n / 10) + [Digito(n % 10)];
      assert r[..|r| - 1] == NatADecimal(n / 10);
      r
  }

  /** `Integer.toString(n)` (and `"" + n`): a minus sign for negatives, then
      the digits of the magnitude. */
  function IntADecimal(n: int): (r: string)
    ensures r != [] && (EsDigito(r[0]) || r[0] == '-')
    ensures SoloDigitos(r[1..])
    ensures n >= 0 ==> SoloDigitos(r) && ValorDecimal(r) == n && (|r| > 1 ==> r[0] != '0')
    ensures n < 0 ==> |r| >= 2 && r[0] == '-' && ValorDecimal(r[1..]) == -n && r[1] != '0'
    ensures !EsEspacio(r[0]) && !EsEspacio(r[|r| - 1])
    ensures '|' !in r
  {
    if n < 0 then "-" + NatADecimal(-n) else NatADecimal(n)
  }

  /** A numeral as `Integer.parseInt` reads it: an optional `+` or `-`,
      then at least one decimal digit. */
  predicate Numeral(s: string) {
    s != [] && if s[0] == '-' || s[0] == '+' then |s| >= 2 && SoloDigitos(s[1..]) else SoloDigitos(s)
  }

  /** The number a numeral denotes: its digits by place value, negated
      after a minus sign. */
  function ValorNumeral(s: string): int
    requires Numeral(s)
  {
    if s[0] == '-' then -(ValorPosicional(s[1..]) as int)
    else if s[0] == '+' then ValorPosicional(s[1..])
    else ValorPosicional(s)
  }

  /** `Integer.parseInt(s)`: an optional `+` or `-`, then at least one
      digit, and the value must fit in a Java `int`; anything else throws
      `NumberFormatException` (`None` here). Leading zeros are accepted. */
  function ParseInt(s: string): (r: Option<int>)
    ensures r.Some? <==> Numeral(s) && IsInt32(ValorNumeral(s))
    ensures r.Some? ==> r.value == ValorNumeral(s)
    ensures r.Some? ==> IsInt32(r.value)
  {
    if s == [] then None
    else if s[0] == '-' || s[0] == '+' then
      if |s| == 1 || !SoloDigitos(s[1..]) then None
      else
        ValorDecimalPosicional(s[1..]);
        var v: int := if s[0] == '-' then -(ValorDecimal(s[1..]) as int) else ValorDecimal(s[1..]);
        if IsInt32(v) then Some(v) else None
    else if SoloDigitos(s) then
      ValorDecimalPosicional(s);
      var v := ValorDecimal(s);
      if IsInt32(v) then Some(v) else None
    else None
  }

  /** A leading `+` and leading zeros are accepted; a lone sign and the
      empty text are rejected. */
  lemma ParseIntCasos()
    ensures ParseInt("+5") == Some(5)
    ensures ParseInt("007") == Some(7)
    ensures ParseInt("+") == None && ParseInt("") == None
  {
    assert ValorPosicional("5") == 5;
    assert ValorPosicional("07") == 7;
    assert ValorPosicional("007") == 7;
  }

  /** A numeral for a magnitude beyond the range of `int` is rejected,
      with or without a sign: `"2147483648"` and `"-2147483649"` throw. */
  lemma ParseIntFueraDeRango(n: nat)
    requires n > INT_MAX
    ensures ParseInt(NatADecimal(n)) == None
    ensures ParseInt("+" + NatADecimal(n)) == None
    ensures n > -INT_MIN ==> ParseInt("-" + NatADecimal(n)) == None
  {
  }

  /** The numeral of `2^31`, one digit at a time. */
  lemma NatADecimalLimite()
    ensures NatADecimal(2147483648) == "2147483648"
  {
    assert NatADecimal(2) == ['2'];
    assert NatADecimal(21) == NatADecimal(2) + ['1'];
    assert NatADecimal(214) == NatADecimal(21) + ['4'];
    assert NatADecimal(2147) == NatADecimal(214) + ['7'];
    assert NatADecimal(21474) == NatADecimal(2147) + ['4'];
    assert NatADecimal(214748) == NatADecimal(21474) + ['8'];
    assert NatADecimal(2147483) == NatADecimal(214748) + ['3'];
    assert NatADecimal(21474836) == NatADecimal(2147483) + ['6'];
    assert NatADecimal(214748364) == NatADecimal(21474836) + ['4'];
    assert NatADecimal(2147483648) == NatADecimal(214748364) + ['8'];
  }

  /** The boundaries of `int`: `2147483648` overflows, while its negation
      is `Integer.MIN_VALUE` and is accepted. */
  lemma ParseIntLimites(m: string)
    requires m == "2147483648"
    ensures ParseInt(m) == None
    ensures ParseInt("-" + m) == Some(INT_MIN)
  {
    NatADecimalLimite();
    ParseIntFueraDeRango(2147483648);
    ParseIntDeIntADecimal(INT_MIN);
  }

  /** Reading back what `Integer.toString` wrote gives the same `int`. */
  lemma ParseIntDeIntADecimal(n: int)
    requires IsInt32(n)
    ensures ParseInt(IntADecimal(n)) == Some(n)
  {
    var s := IntADecimal(n);
    if n < 0 {
      assert s[1..] == NatADecimal(-n);
    } else {
      var d := NatADecimal(n);
      assert s == d;
      assert EsDigito(d[0]);
    }
  }

  /** A string holding a character that is neither a digit nor a leading
      sign is never a number. */
  lemma ParseIntRechazaNoNumerico(s: string, i: int)
    requires 0 <= i < |s| && !EsDigito(s[i])
    requires i > 0 || (s[0] != '-' && s[0] != '+')
    ensures ParseInt(s) == None
  {
    if i > 0 {
      assert s[1..][i - 1] == s[i];
    }
  }

  // ---------------------------------------------------------------------
  // split("\\|")

  /** Every piece between two `|` characters, empty pieces included. */
  function Trozos(s: string): (r: seq<string>)
    ensures |r| >= 1
  {
    if s == [] then [""]
    else
      var resto := Trozos(s[1..]);
      if s[0] == '|' then [""] + resto
      else [[s[0]] + resto[0]] + resto[1..]
  }

  /** No piece contains `|`. */
  lemma {:induction false} TrozosSinBarras(s: string)
    ensures forall i :: 0 <= i < |Trozos(s)| ==> '|' !in Trozos(s)[i]
  {
    if s != [] {
      TrozosSinBarras(s[1..]);
      var resto := Trozos(s[1..]);
      if s[0] != '|' {
        assert '|' !in [s[0]] + resto[0];
      }
    }
  }

  /** The pieces joined again with `|` in between. */
  function Unir(partes: seq<string>): string
    requires |partes| >= 1
  {
    if |partes| == 1 then partes[0]
    else partes[0] + "|" + Unir(partes[1..])
  }

  /** Splitting then joining gives the original string back. */
  lemma {:induction false} UnirTrozos(s: string)
    ensures Unir(Trozos(s)) == s
  {
    if s != [] {
      UnirTrozos(s[1..]);
      var resto := Trozos(s[1..]);
      if s[0] == '|' {
        assert ([""] + resto)[1..] == resto;
      } else {
        var r := [[s[0]] + resto[0]] + resto[1..];
        if |resto| == 1 {
          assert Unir(r) == [s[0]] + resto[0];
        } else {
          assert r[1..] == resto[1..];
          assert Unir(resto) == resto[0] + "|" + Unir(resto[1..]);
        }
      }
    }
  }

  lemma {:induction false} TrozosSinBarra(a: string)
    requires '|' !in a
    ensures Trozos(a) == [a]
  {
    if a != [] {
      assert '|' !in a[1..] by {
        forall i | 0 <= i < |a| - 1 ensures a[1..][i] != '|' { assert a[1..][i] == a[i + 1]; }
      }
      TrozosSinBarra(a[1..]);
      assert a == [a[0]] + a[1..];
    }
  }

  lemma TrozosTrasBarra(a: string, b: string)
    requires '|' !in a
    ensures Trozos(a + "|" + b) == [a] + Trozos(b)
  {
    TrozosConcat(a, b);
    TrozosSinBarra(a);
  }


  /** Cutting at every `|` works piece by piece: the pieces of `a | b` are
      those of `a` followed by those of `b`, whatever `a` and `b` hold. */
  lemma {:induction false} TrozosConcat(a: string, b: string)
    ensures Trozos(a + "|" + b) == Trozos(a) + Trozos(b)
  {
    if a == [] {
      assert a + "|" + b == ['|'] + b;
      assert (['|'] + b)[1..] == b;
    } else {
      var s := a + "|" + b;
      assert s[0] == a[0] && s[1..] == a[1..] + "|" + b;
      TrozosConcat(a[1..], b);
      var ta, tb := Trozos(a[1..]), Trozos(b);
      assert Trozos(s[1..]) == ta + tb;
      if a[0] == '|' {
        assert Trozos(s) == [""] + (ta + tb);
      } else {
        var t := Trozos(s[1..]);
        assert Trozos(s) == [[s[0]] + t[0]] + t[1..];
        assert t[0] == ta[0] && t[1..] == ta[1..] + tb;
      }
    }
  }

  /** Joining pieces that contain no `|` and splitting again gives the same
      pieces back. */
  lemma {:induction false} TrozosDeUnir(partes: seq<string>)
    requires |partes| >= 1
    requires forall i :: 0 <= i < |partes| ==> '|' !in partes[i]
    ensures Trozos(Unir(partes)) == partes
  {
    if |partes| == 1 {
      TrozosSinBarra(partes[0]);
    } else {
      var cola := partes[1..];
      assert forall i :: 0 <= i < |cola| ==> '|' !in cola[i] by {
        forall i | 0 <= i < |cola| ensures '|' !in cola[i] { assert cola[i] == partes[i + 1]; }
      }
      TrozosDeUnir(cola);
      TrozosTrasBarra(partes[0], Unir(cola));
      assert partes == [partes[0]] + cola;
    }
  }

  function QuitarVaciosFinales(r: seq<string>): (q: seq<string>)
    ensures |q| <= |r| && q == r[..|q|]
    ensures q == [] || q[|q| - 1] != ""
    ensures forall i :: |q| <= i < |r| ==> r[i] == ""
  {
    if r != [] && r[|r| - 1] == "" then QuitarVaciosFinales(r[..|r| - 1]) else r
  }

  /** `String.split("\\|")`: a string without `|` is returned whole (even
      when empty); otherwise it is cut at every `|` and the empty pieces at
      the end are dropped. */
  function Split(s: string): (r: seq<string>)
    ensures forall i :: 0 <= i < |r| ==> '|' !in r[i]
    ensures '|' !in s ==> r == [s]
    ensures '|' in s ==> r == [] || r[|r| - 1] != ""
    ensures '|' in s ==> exists k: nat :: |r| + k >= 1 && Unir(r + Vacios(k)) == s
  {
    if '|' !in s then [s]
    else
      var t := Trozos(s);
      TrozosSinBarras(s);
      var r := QuitarVaciosFinales(t);
      var k: nat := |t| - |r|;
      assert t == r + Vacios(k);
      UnirTrozos(s);
      r
  }

  /** `k` empty strings. */
  function Vacios(k: nat): seq<string> {
    seq(k, _ => "")
  }

  /** When the last piece is not empty, `split` undoes `Unir`. */
  lemma SplitDeUnir(partes: seq<string>)
    requires |partes| >= 2
    requires forall i :: 0 <= i < |partes| ==> '|' !in partes[i]
    requires partes[|partes| - 1] != ""
    ensures Split(Unir(partes)) == partes
  {
    TrozosDeUnir(partes);
    var s := Unir(partes);
    assert '|' in s by {
      if '|' !in s { TrozosSinBarra(s); }
    }
  }

  // ---------------------------------------------------------------------
  // Boolean.parseBoolean, toLowerCase, contains

  /** `Boolean.parseBoolean(s)`: true exactly for `"true"` in any mix of
      upper and lower case. */
  function ParseBoolean(s: string): (r: bool)
    ensures r <==> |s| == 4 && s[0] in "tT" && s[1] in "rR" && s[2] in "uU" && s[3] in "eE"
  {
    AMinusculas(s) == "true"
  }

  /** `Character.toLowerCase` restricted to ASCII letters. */
  function AMinuscula(c: char): (r: char)
    ensures 'A' <= c <= 'Z' ==> r as int == c as int + 32
    ensures !('A' <= c <= 'Z') ==> r == c
  {
    if 'A' <= c <= 'Z' then (c as int + 32) as char else c
  }

  function AMinusculas(s: string): (r: string)
    ensures |r| == |s|
    ensures forall i :: 0 <= i < |s| ==> r[i] == AMinuscula(s[i])
  {
    seq(|s|, i requires 0 <= i < |s| => AMinuscula(s[i]))
  }

  /** `String.contains`: `sub` occurs somewhere in `s`. */
  predicate Contiene(s: string, sub: string) {
    exists i :: 0 <= i <= |s| - |sub| && ApareceEn(s, sub, i)
  }

  /** `sub` occurs in `s` starting at index `i`. */
  predicate ApareceEn(s: string, sub: string, i: int)
    requires 0 <= i <= |s| - |sub|
  {
    s[i..i + |sub|] == sub
  }
}

=== FILE: validacion.dfy ===
/** `validacion.ValidadorEntradas`: the checks made on user input before the
    store is changed. The two copies of the class in the repository differ
    only in the longest description they accept. */
module Validacion {
  import opened Common
  import opened Texto

  /** The description cap of `src/main/java/validacion/ValidadorEntradas.java`. */
  const LIMITE_MAIN: nat := 150
  /** The description cap of `src/validacion/ValidadorEntradas.java`. */
  const LIMITE_SRC: nat := 200

  /** `validarId`: only positive ids pass. */
  function ValidarId(id: int): (r: Outcome)
    ensures r.Pass? <==> id > 0
    ensures r.Fail? ==> r.error == Validacion(IdNoPositivo)
  {
    if id <= 0 then Fail(Validacion(IdNoPositivo)) else Pass
  }

  /** `validarDescripcion` with cap `limite`; `None` is Java's `null`. The
      emptiness check (on the trimmed text) comes first, the length check
      (on the untrimmed text) second. */
  function ValidarDescripcion(descripcion: Option<string>, limite: nat): (r: Outcome)
    ensures r == Fail(Validacion(DescripcionVacia)) <==> descripcion.None? || EnBlanco(descripcion.value)
    ensures r == Fail(Validacion(DescripcionLarga)) <==>
              descripcion.Some? && !EnBlanco(descripcion.value) && |descripcion.value| > limite
    ensures r == Pass <==> descripcion.Some? && !EnBlanco(descripcion.value) && |descripcion.value| <= limite
  {
    if descripcion.None? || Trim(descripcion.value) == "" then Fail(Validacion(DescripcionVacia))
    else if |descripcion.value| > limite then Fail(Validacion(DescripcionLarga))
    else Pass
  }

  /** Every description the 150-character copy accepts, the 200-character
      copy accepts too; 151 letters `a` separate them. */
  lemma LimiteSrcMasAmplio(descripcion: Option<string>)
    ensures ValidarDescripcion(descripcion, LIMITE_MAIN) == Pass ==> ValidarDescripcion(descripcion, LIMITE_SRC) == Pass
    ensures var a151 := Some(seq(151, _ => 'a'));
            ValidarDescripcion(a151, LIMITE_MAIN) == Fail(Validacion(DescripcionLarga)) &&
            ValidarDescripcion(a151, LIMITE_SRC) == Pass
  {
    var a151 := seq(151, _ => 'a');
    assert !EsEspacio(a151[0]);
  }

  /** The rejected inputs of the unit tests: `null`, `""` and `"   "` are
      empty, and a short ordinary description passes. The 151-letter case
      is `LimiteSrcMasAmplio`. */
  lemma CasosDePrueba()
    ensures ValidarDescripcion(None, LIMITE_MAIN) == Fail(Validacion(DescripcionVacia))
    ensures ValidarDescripcion(Some(""), LIMITE_MAIN) == Fail(Validacion(DescripcionVacia))
    ensures ValidarDescripcion(Some("   "), LIMITE_MAIN) == Fail(Validacion(DescripcionVacia))
    ensures ValidarDescripcion(Some("Completar proyecto Java"), LIMITE_MAIN) == Pass
  {
    var s := "Completar proyecto Java";
    assert !EsEspacio(s[0]);
  }

  /** `validarOpcionMenu`: a linear scan of the allowed options with a flag
      and an early exit. */
  method ValidarOpcionMenu(opcion: int, opcionesValidas: array<int>) returns (r: Outcome)
    ensures r.Pass? <==> opcion in opcionesValidas[..]
    ensures r.Fail? ==> r.error == Validacion(OpcionInvalida)
  {
    var esValida := false;
    var i := 0;
    while i < opcionesValidas.Length
      invariant 0 <= i <= opcionesValidas.Length
      invariant opcion !in opcionesValidas[..i]
    {
      if opcion == opcionesValidas[i] {
        esValida := true;
        break;
      }
      i := i + 1;
    }
    assert esValida ==> opcionesValidas[i] == opcion;
    assert !esValida ==> opcionesValidas[..i] == opcionesValidas[..];
    if !esValida {
      return Fail(Validacion(OpcionInvalida));
    }
    return Pass;
  }

  /** `validarYParsearEntero`: `Integer.parseInt` of the trimmed input.
      It succeeds exactly when the trimmed input is a numeral whose value
      fits in an `int`, and then yields that value. */
  function ValidarYParsearEntero(entrada: string): (r: Result<int>)
    ensures r.Success? <==> Numeral(Trim(entrada)) && IsInt32(ValorNumeral(Trim(entrada)))
    ensures r.Success? ==> r.value == ValorNumeral(Trim(entrada))
    ensures r.Success? ==> IsInt32(r.value)
    ensures r.Failure? ==> r.error == Validacion(NoEsEntero)
    ensures EnBlanco(entrada) ==> r.Failure?
  {
    match ParseInt(Trim(entrada))
    case Some(n) => Success(n)
    case None => Failure(Validacion(NoEsEntero))
  }

  /** Any `int`, written in decimal and surrounded by blanks, is read back. */
  lemma ParsearEnteroDeDecimal(antes: string, n: int, despues: string)
    requires EnBlanco(antes) && EnBlanco(despues) && IsInt32(n)
    ensures ValidarYParsearEntero(antes + IntADecimal(n) + despues) == Success(n)
  {
    TrimRodeado(antes, IntADecimal(n), despues);
    ParseIntDeIntADecimal(n);
  }

  /** Input whose trimmed text holds a character that is neither a digit
      nor a leading sign is rejected. */
  lemma ParsearEnteroRechaza(entrada: string, i: int)
    requires 0 <= i < |Trim(entrada)| && !EsDigito(Trim(entrada)[i])
    requires i > 0 || (Trim(entrada)[0] != '-' && Trim(entrada)[0] != '+')
    ensures ValidarYParsearEntero(entrada) == Failure(Validacion(NoEsEntero))
  {
    ParseIntRechazaNoNumerico(Trim(entrada), i);
  }
}
